=== FILE: README.md ===
# mini-chatbot in Dafny

A model of the logic of a small local chatbot. The chatbot has an Express
server that relays chat turns to an Ollama model server, and a React client
that shows the conversation and exports or imports conversation files. The
model covers five pieces:

- **The model-server client** (`Ollama`, `StreamDecoder`). It builds the
  upstream `messages` list and interprets single-shot replies and model
  lists. It maps transport failures to the user-facing texts. For a streamed
  reply it decodes newline-delimited JSON frames:
  - chunks are appended to a buffer, split on `\n`, and the unterminated
    tail is kept;
  - blank lines and lines starting with `:` are skipped, and unparsable
    lines are dropped;
  - non-empty content fragments are accumulated and reported through the
    `onData(fragment, cumulative, done)` callback;
  - an `error` frame rejects the promise;
  - the residual buffer is parsed on `end`, and again on `close`.

  The transport is an event trace (`Data`, `End`, `Error`, `Close`).
  `JSON.parse` is a parser function passed in as a parameter.
- **The conversation store and turn logic** (`ConversationStore`,
  `ChatController`). The store is a JavaScript `Map`, modelled as an
  insertion-ordered key list plus a map. Each save evicts the earliest key
  once the store holds more than 100 conversations. `sendMessage`
  validates the request, gets or creates the conversation, appends the user
  message, calls the model server, and on success appends the assistant
  message and saves. `getConversation` and `clearConversation` are also
  modelled.
- **The chat page** (`ChatWindow`). Its state machine covers:
  - the send guard;
  - the optimistic user message;
  - the three ways a send ends (success, failure result, thrown error);
  - clearing the chat;
  - selecting a model after the model list arrives.
- **The message box** (`MessageInput`): the submit guard, the Enter key,
  and the two `disabled` attributes.
- **The export/import panel** (`ExportImport`):
  - toggling the selection, and choosing what to export;
  - writing CSV and Markdown;
  - checking an import file, and filling in missing fields of imported
    records with JavaScript `||` defaults.

Shared pieces are `Wrappers` (`Option`, which stands for `undefined`),
`JsText` and `Messages` (roles, message records, and id lists).
`JsText` holds the JavaScript string operations the code relies on:
`trim`, `split`, `join`, `slice`, `startsWith`, `endsWith`, quote doubling
and `String(n)`.

The model reproduces these behaviours of the code as written:

- The frame loop does not stop after an error frame. Later lines in the
  same chunk are still reported, so chunk boundaries change the result
  (`ErrorFrameDoesNotStopChunk`, `ChunkingMattersAfterError`).
- `end` does not clear the buffer, and `close` parses it again. The
  residual fragment is therefore accumulated and reported twice
  (`EndThenCloseReportsTwice`).
- A failure before the stream opens *resolves* with `{ success: false }`.
  A failure during the stream *rejects*.
- The controller puts the user message into the history before calling the
  service, and the service appends it again. The model server therefore
  receives the user turn twice (`UpstreamSeesUserTurnTwice`).
- When the model server fails, a new conversation is not stored. An
  existing conversation keeps the user message, because the stored object
  was changed in place (`FailureStoresNoReply`).
- A success result without `message` still switches the page to the
  returned conversation, and then shows the connection-failure text
  (`SuccessWithoutMessage`).
- In the CSV export only the first-message field has its quotes doubled
  (section 2, rule 7 of RFC 4180). The title is written between quotes as
  it is.

Several things are parameters rather than part of the model:

- ids (`uuid`, `crypto.randomUUID`) and clock readings are supplied values;
- date formatting (`toISOString`, `toLocaleString`) is a function argument;
- `JSON.stringify` is a function argument;
- each HTTP call is replaced by its outcome.

## Model

| member | source | states |
|---|---|---|
| Ollama.ConfigFromEnv | server/src/services/ollamaService.js:3-4 | an unset or empty `OLLAMA_BASE_URL` / `DEFAULT_MODEL` falls back to `http://localhost:11434` / `llama2`; a non-empty value is used as is |
| Ollama.ResolveModel | server/src/services/ollamaService.js:62 | the `model` default parameter: a passed model is used as is, even when empty; an absent one becomes the configured default |
| Ollama.BuildMessages | server/src/services/ollamaService.js:64-69 | the upstream list is the history projected to role and content in order, followed by exactly one user turn carrying the message |
| Ollama.Fragment | server/src/services/ollamaService.js:160 | a frame contributes a fragment exactly when it has a `message` whose `content` is a non-empty string, and the fragment is that content |
| Ollama.ErrorOf | server/src/services/ollamaService.js:165 | a frame is an error frame exactly when its `error` is a non-empty string |
| Ollama.DoneFlag | server/src/services/ollamaService.js:162 | an absent `done` reads as false, a present one as its value |
| Ollama.ConnectionErrorText | server/src/services/ollamaService.js:21-27 | refused connection, timeout (`ETIMEDOUT` or `ECONNABORTED`) and every other failure map to their three fixed texts, the first naming the base URL |
| Ollama.ListModelsErrorText | server/src/services/ollamaService.js:46-56 | a 404 maps to the update-Ollama text; any other response prefers `data.error`, else `Ollama API error: <status>`; with no response a refused connection names the base URL and anything else keeps `error.message` |
| Ollama.GenerateErrorText | server/src/services/ollamaService.js:94-108 | 404, 500 (`data.error` or `Ollama server error`), other responses (`data.error` or `error.message`), refused connection, timeout and the `Failed to generate response` default, each with its exact text |
| Ollama.StreamSetupErrorText | server/src/services/ollamaService.js:214-228 | the same case split for failures before the stream opens, with the stream variant's texts (`HTTP error: <status>`, no trailing sentence after the URL, `Ollama may be overloaded`) |
| Ollama.ResponseErrorTextWins | server/src/services/ollamaService.js:96-103 | in all three classifiers a non-404 response carrying a non-empty `data.error` is reported with exactly that text |
| Ollama.CheckConnection | server/src/services/ollamaService.js:12-34 | connected exactly when the tags request succeeds, passing `data.models` through; otherwise the connection classifier's text |
| Ollama.ModelNames | server/src/services/ollamaService.js:42 | the names of the listed models in order, or `[]` when `models` is missing |
| Ollama.ListModels | server/src/services/ollamaService.js:37-59 | success exactly when the tags request succeeds, with the model names; otherwise the list classifier's text |
| Ollama.ConnectedExactlyWhenListed | server/src/services/ollamaService.js:12-59 | over the same `/api/tags` outcome the connection check succeeds exactly when the model listing does, and the listed names are those of the models the check passes through |
| Ollama.GenerateResponse | server/src/services/ollamaService.js:62-115 | posts the resolved model, the built list and `stream: false`; succeeds exactly when the reply has a `message`, returning its content, the model and `done`; a reply without one gives `Invalid response from Ollama`; a transport failure gives the classified text |
| Ollama.DefaultModelIsLlama2 | server/src/services/ollamaService.js:81-88 | with no `DEFAULT_MODEL` and no model argument, a successful reply reports `llama2` |
| Ollama.ExplicitModelIsUsed | server/src/services/ollamaService.js:71-85 | an explicit model argument is posted and reported back whatever the configured default |
| StreamDecoder.Settle | server/src/services/ollamaService.js:189-195 | the promise keeps its first settlement; later `resolve` or `reject` calls change nothing |
| StreamDecoder.SplitChunk | server/src/services/ollamaService.js:151-153 | the complete lines and the new buffer are free of `\n`, and the lines joined with `\n`, followed by the new buffer, are exactly the old buffer followed by the chunk |
| StreamDecoder.Feed | server/src/services/ollamaService.js:151-153 | after at least one chunk the buffer and every complete line are free of `\n`; with no chunks nothing is split and the buffer is as it was |
| StreamDecoder.FeedInvariant | server/src/services/ollamaService.js:151-153 | after any chunks the buffer and every complete line are free of `\n`, and the lines joined with `\n`, followed by the buffer, are exactly the text received |
| StreamDecoder.FeedIsSplit | server/src/services/ollamaService.js:151-153 | the lines and buffer after any chunks equal those of the whole text split at once |
| StreamDecoder.FeedChunkInvariance | server/src/services/ollamaService.js:151-153 | the complete lines and the buffer depend only on the concatenated input, not on the chunk boundaries |
| StreamDecoder.ProcessLine | server/src/services/ollamaService.js:155-171 | a blank, `:`-prefixed or unparsable line changes nothing; otherwise the fragment is appended and one callback is made with the fragment, the new total and the frame's `done` flag (false when absent); an error frame sets the flag and rejects if nothing settled yet; the buffer is untouched |
| StreamDecoder.ProcessLinesFacts | server/src/services/ollamaService.js:155-163 | a run of lines appends the concatenation of their fragments, makes one callback per contributing line, and leaves the buffer alone |
| StreamDecoder.ProcessLinesFlags | server/src/services/ollamaService.js:165-168 | the error flag never clears, and lines without an error frame change neither the flag nor the settlement |
| StreamDecoder.ProcessLinesAppend | server/src/services/ollamaService.js:155-172 | processing two runs of lines one after the other is processing their concatenation |
| StreamDecoder.OnData | server/src/services/ollamaService.js:148-173 | after an error it changes nothing; otherwise the buffer becomes the unterminated tail of buffer plus chunk, and the fragments of the complete lines are appended with one callback each; the callback log only grows, a settled promise stays settled, and with no error frame the flag and settlement are unchanged |
| StreamDecoder.ParseResidual | server/src/services/ollamaService.js:178-188 | a residual with a fragment appends it and reports it with `done` true and the new total; otherwise nothing changes; the buffer, flag and settlement are untouched |
| StreamDecoder.OnEnd | server/src/services/ollamaService.js:175-190 | after an error it changes nothing; otherwise the residual fragment is appended, exactly one callback with `done` true is made for it (none when there is no fragment), and the promise resolves with the accumulated text, unless it was settled before |
| StreamDecoder.OnError | server/src/services/ollamaService.js:192-197 | the first transport error sets the flag and rejects with its message, unless already settled; the text and callbacks are untouched; after an error nothing changes |
| StreamDecoder.OnClose | server/src/services/ollamaService.js:199-211 | with no error the residual fragment is appended again, with exactly one callback with `done` true for it and none otherwise; the flag, buffer and settlement never change |
| StreamDecoder.Step | server/src/services/ollamaService.js:148-211 | each event leaves an errored session unchanged, only extends the callback log, keeps a settlement once made, and settles whenever it raises the error flag |
| StreamDecoder.Run | server/src/services/ollamaService.js:145-211 | over any event trace: an errored session stays unchanged, callbacks are only appended, the first settlement is final, and an error implies a settlement |
| StreamDecoder.ErrorFrameRejects | server/src/services/ollamaService.js:165-168 | a chunk whose first complete line is the only error frame rejects with that frame's `error`, and nothing after the chunk changes the session |
| StreamDecoder.ErrorFrameDoesNotStopChunk | server/src/services/ollamaService.js:155-168 | a content line after an error frame in the same chunk is still accumulated and reported, although the promise is rejected |
| StreamDecoder.ChunkingMattersAfterError | server/src/services/ollamaService.js:148-168 | the same text split after the error line does not report that content, so after an error frame the result depends on chunk boundaries |
| StreamDecoder.ErrorChunkFirstDropsContent | server/src/services/ollamaService.js:148-168 | when the error line arrives in its own chunk, the content line in the next chunk is never accumulated |
| StreamDecoder.ReportCoherent | server/src/services/ollamaService.js:160-163 | appending a non-empty fragment and calling back with the new total keeps the callback log consistent with the accumulated text |
| StreamDecoder.RunCoherent | server/src/services/ollamaService.js:142-211 | over any event trace, every callback's fragment is non-empty and its second argument is the concatenation of all fragments reported so far; the accumulated text is that concatenation; a resolved response is a prefix of it |
| StreamDecoder.DataRunIsLines | server/src/services/ollamaService.js:148-173 | with no error frame, a run of data chunks acts as processing the complete lines of the text received, keeping its unterminated tail as the buffer |
| StreamDecoder.SessionChunkInvariance | server/src/services/ollamaService.js:148-173 | with no error frame, two chunkings of the same text lead to the same session |
| StreamDecoder.StreamResolvesWithAllContent | server/src/services/ollamaService.js:175-190 | with no error frame, data followed by `end` resolves with the fragments of all complete lines followed by the fragment of the non-blank residual |
| StreamDecoder.EndThenCloseReportsTwice | server/src/services/ollamaService.js:175-211 | a residual fragment is reported with `done` true on `end` and again on `close`, and is accumulated twice; the resolved response holds it once |
| StreamDecoder.GenerateStreamResponse | server/src/services/ollamaService.js:117-234 | posts the resolved model, the built list and `stream: true`; a failure before the stream resolves with the classified text and no callbacks; a rejection comes only from the stream; a resolution carries the model, `done` true and a response that is a prefix of the reported fragments |
| StreamDecoder.OneFrameStreamMatchesSingleShot | server/src/services/ollamaService.js:62-190 | a stream of one final content frame followed by `end` resolves with what the single-shot post of that frame returns, posts the same request except `stream: true`, and makes one callback |
| ConversationStore.Empty | server/src/controllers/chatController.js:5 | the initial store is well formed and empty |
| ConversationStore.SizeIsEntryCount | server/src/controllers/chatController.js:74 | the length of the key order is the number of entries, so it is `map.size` |
| ConversationStore.Get | server/src/controllers/chatController.js:97 | a lookup yields a value exactly for stored keys, and that value is the one stored under the key |
| ConversationStore.Set | server/src/controllers/chatController.js:71 | `set` stores the value and changes no other key; a new key goes last in the order and an existing key keeps its place |
| ConversationStore.Delete | server/src/controllers/chatController.js:122-124 | `delete` removes that key only, keeps the order of the rest, and on a missing key changes nothing |
| ConversationStore.DeleteIdempotent | server/src/controllers/chatController.js:122-124 | deleting twice is deleting once |
| ConversationStore.Save | server/src/controllers/chatController.js:71-77 | a save followed by the eviction keeps the store well formed |
| ConversationStore.SaveWithinCapacity | server/src/controllers/chatController.js:71-77 | saving into a store of at most 100 keeps it at most 100 and keeps the saved value; only a new key saved into a full store evicts, and it evicts exactly the earliest key, changing no other entry |
| ConversationStore.SaveEvicts | server/src/controllers/chatController.js:71-77 | a new key saved into a full store is the store with the key appended and the earliest key deleted, and the key order moves up by one |
| ConversationStore.ResaveKeepsPosition | server/src/controllers/chatController.js:71-77 | re-saving a stored key does not move it in the insertion order |
| ChatController.EmptyStoreInvariant | server/src/controllers/chatController.js:5 | the empty store satisfies the between-requests invariant (well formed, at most 100, each conversation under its own id) |
| ChatController.Pick | server/src/controllers/chatController.js:29-40 | a truthy id that the store holds selects the stored conversation; otherwise a new empty conversation under the fresh id, with `model` or the default model, so its model is never empty |
| ChatController.SendMessage | server/src/controllers/chatController.js:18-84 | the turn is a 400 `Message is required` exactly when the message is missing or blank after trim, and then the store is unchanged and nothing is sent upstream; every turn keeps the store invariant |
| ChatController.ContinuedConversationKeepsId | server/src/controllers/chatController.js:29-81 | continuing a stored conversation posts its stored model, ignoring the request's, and a success returns the same id |
| ChatController.NewConversationUsesFreshId | server/src/controllers/chatController.js:33-39 | otherwise the posted model is `model` or the default, and a success returns the fresh id |
| ChatController.SuccessAppendsTwoMessages | server/src/controllers/chatController.js:43-84 | a success stores the conversation with exactly the user message and the assistant message appended; the assistant content is the service's `response`, and that message is the one returned |
| ChatController.FailureStoresNoReply | server/src/controllers/chatController.js:57-59 | an upstream failure is a 500 carrying the service result; a new conversation is not stored; an existing one keeps its place and gains only the user message |
| ChatController.UpstreamSeesUserTurnTwice | server/src/controllers/chatController.js:43-55 | the list sent upstream is two longer than the conversation's earlier messages and ends with the user turn twice |
| ChatController.ContinuingTwoMessagesGivesFour | server/src/controllers/chatController.js:31-71 | a successful turn on a stored conversation of two messages leaves it with four |
| ChatController.GetConversation | server/src/controllers/chatController.js:94-109 | 404 `Conversation not found` exactly when the id is not stored; otherwise the stored conversation |
| ChatController.FoundHasRequestedId | server/src/controllers/chatController.js:97-109 | a found conversation carries the requested id |
| ChatController.ClearConversation | server/src/controllers/chatController.js:118-129 | always answers `Conversation cleared`, and keeps the store invariant |
| ChatController.ClearRemovesOnlyThatId | server/src/controllers/chatController.js:122-124 | clearing removes that id, leaves every other conversation as it was, and clearing again changes nothing |
| ChatWindow.BeginSend | client/src/components/ChatWindow.jsx:55-64 | appends exactly one user message with the given content, raises `isLoading`, and changes nothing else |
| ChatWindow.FinishSend | client/src/components/ChatWindow.jsx:66-105 | every outcome appends exactly one message and leaves `isLoading` false; only a success result changes the conversation id, to the result's |
| ChatWindow.HandleSend | client/src/components/ChatWindow.jsx:52-106 | blank content or a pending send changes nothing and sends nothing; otherwise the request carries the content with the selected model and current id, and the list gains the user message and then one more message |
| ChatWindow.SendSuccess | client/src/components/ChatWindow.jsx:73-84 | a success result sets the conversation id to the result's and appends one assistant message with the result message's id and content |
| ChatWindow.SendFailure | client/src/components/ChatWindow.jsx:85-94 | a failure result keeps the id and the user message and appends one system message `Error: ` + (`error` or `Failed to get response`) |
| ChatWindow.SendThrew | client/src/components/ChatWindow.jsx:95-102 | a thrown error appends one system message with the fixed connection-failure text |
| ChatWindow.Reply | client/src/components/ChatWindow.jsx:73-102 | the appended message is never a user message; it is the result's assistant message exactly for a success with `message`, otherwise a system message with the fresh id and time, carrying `Error: ` + (`error` or `Failed to get response`) for a failure and the connection-failure text otherwise; only a success result changes the id |
| ChatWindow.SuccessWithoutMessage | client/src/components/ChatWindow.jsx:73-84 | a success result without `message` still takes the result's conversation id, then appends the connection-failure message |
| ChatWindow.ClearChat | client/src/components/ChatWindow.jsx:108-114 | messages become empty and the id null; the server clear is requested exactly when the id was truthy, for that id |
| ChatWindow.ApplyModels | client/src/components/ChatWindow.jsx:36-46 | a successful non-empty model list replaces the available models and selects its first entry; anything else changes nothing |
| ChatWindow.ApplyHealth | client/src/components/ChatWindow.jsx:27-34 | the connected flag is the health result's `success`, false when the call throws |
| ChatWindow.PageFollowsServer | client/src/components/ChatWindow.jsx:27-46 | given the server's `checkConnection` and `listModels` results for one `/api/tags` outcome, the page shows connected exactly when the server answered, and selects the first listed name when there is one, changing nothing otherwise |
| ChatWindow.InitialSettled | client/src/components/ChatWindow.jsx:8-13 | the initial state is idle with an empty list |
| ChatWindow.RunSettled | client/src/components/ChatWindow.jsx:52-114 | over any sequence of sends and clears the page ends idle, and its list alternates a user message with a non-user reply |
| ChatWindow.InputSendStartsRequest | client/src/components/ChatWindow.jsx:170-174 | text the message box hands up, with the page's `isLoading` and `!isConnected` as its props, always passes the page's guard and starts a request |
| MessageInput.Submit | client/src/components/MessageInput.jsx:6-12 | sends exactly when the text is not blank after trim and neither `isLoading` nor `disabled` holds; sends the text untrimmed and clears the field; otherwise the field is unchanged |
| MessageInput.Change | client/src/components/MessageInput.jsx:26 | an edit sets the field to the edited text |
| MessageInput.CanSubmit | client/src/components/MessageInput.jsx:8 | the submit guard holds exactly when the trimmed text is non-empty and neither `isLoading` nor `disabled` holds |
| MessageInput.ButtonDisabled | client/src/components/MessageInput.jsx:41 | the button is disabled exactly when the submit guard fails |
| MessageInput.TextareaDisabled | client/src/components/MessageInput.jsx:29 | while the textarea is disabled no text passes the submit guard; while it is enabled exactly the non-blank texts do |
| MessageInput.KeyDown | client/src/components/MessageInput.jsx:14-19 | Enter without Shift is a submit; any other key, or Shift+Enter, sends nothing and changes nothing |
| MessageInput.ButtonEnabledIffSubmitSends | client/src/components/MessageInput.jsx:41 | the button is enabled exactly when submitting sends |
| MessageInput.DisabledTextareaSendsNothing | client/src/components/MessageInput.jsx:29 | while the textarea is disabled (`isLoading` or `disabled`) the button is disabled and nothing is sent |
| MessageInput.SentTextIsUntrimmed | client/src/components/MessageInput.jsx:8-9 | surrounding whitespace is kept in the text sent |
| MessageInput.TypeThenEnter | client/src/components/MessageInput.jsx:14-19 | typing a sendable text and pressing Enter sends it and empties the field, so a second Enter sends nothing |
| ExportImport.CountOf | client/src/components/ExportImportPanel.jsx:115 | a non-zero `messageCount` wins; otherwise the length of `messages` when present, else 0 |
| ExportImport.Ids | client/src/components/ExportImportPanel.jsx:21 | the conversation ids in list order |
| ExportImport.SelectAll | client/src/components/ExportImportPanel.jsx:17-24 | from the unset state every id is selected, from the set state the selection is cleared; the flag flips either way |
| ExportImport.Toggle | client/src/components/ExportImportPanel.jsx:26-33 | a selected id is removed and select-all cleared; an unselected id is appended; other ids are unaffected |
| ExportImport.ToggleTwice | client/src/components/ExportImportPanel.jsx:26-33 | two toggles of the same id restore every id's membership, and restore the list exactly when the id started unselected |
| ExportImport.Chosen | client/src/components/ExportImportPanel.jsx:37 | keeps exactly the conversations whose id is selected, never more than there were; a single conversation is kept or dropped by its id |
| ExportImport.ChosenAppend | client/src/components/ExportImportPanel.jsx:37 | filtering a concatenation is concatenating the filtered parts, so with the one-element case the order and repetitions of the list are kept |
| ExportImport.ExportSet | client/src/components/ExportImportPanel.jsx:36-38 | an empty selection exports the whole list as it is; otherwise exactly the `Chosen` filter of the list by the selected ids |
| ExportImport.SelectAllExportsEverything | client/src/components/ExportImportPanel.jsx:17-38 | select-all from the cleared state exports every conversation in order |
| ExportImport.FirstMessage | client/src/components/ExportImportPanel.jsx:60 | the first 100 characters of the first message's content when there is a first message with content, and `''` otherwise |
| ExportImport.CsvRow | client/src/components/ExportImportPanel.jsx:59-61 | a row is the quoted title and the quoted ISO date, each followed by a comma, then the decimal count (`messageCount`, else the number of messages, else 0) and a comma, then the quoted, quote-doubled first message; a line break in it comes from the title, the date or the first message |
| ExportImport.Csv | client/src/components/ExportImportPanel.jsx:58-63 | the file starts with the header line; with nothing to export it is the header line alone |
| ExportImport.CsvLines | client/src/components/ExportImportPanel.jsx:58-63 | read line by line the CSV is the fixed header and then one row per exported conversation, when no field holds a line break |
| ExportImport.CsvFirstMessageRecoverable | client/src/components/ExportImportPanel.jsx:60-61 | undoing the quote doubling of the first-message field gives back the first 100 characters of the first message |
| ExportImport.CsvCountRecoverable | client/src/components/ExportImportPanel.jsx:61 | for a non-negative count, the Messages column holds only decimal digits followed by the comma, and the digits read back as the count |
| ExportImport.MarkdownMessage | client/src/components/ExportImportPanel.jsx:51 | a message renders as `**role:** ` followed by its content |
| ExportImport.MarkdownSection | client/src/components/ExportImportPanel.jsx:47-53 | a section is `# title` and a blank line, then `Date: ` with the localised time and a blank line, then the rendered messages joined by blank lines, then the `---` rule |
| ExportImport.Markdown | client/src/components/ExportImportPanel.jsx:47-54 | nothing to export gives the empty text; one conversation gives its section |
| ExportImport.MarkdownAppend | client/src/components/ExportImportPanel.jsx:47-54 | the Markdown of two non-empty lists is the first's Markdown, a blank line, and the second's |
| ExportImport.DatePart | client/src/components/ExportImportPanel.jsx:44 | the file-name date is the part of the ISO time before the first `T`: a `T`-free prefix followed by `T` or the end |
| ExportImport.MarkdownMissingMessagesAsEmpty | client/src/components/ExportImportPanel.jsx:50 | a conversation with no message list is written like one with an empty list |
| ExportImport.Export | client/src/components/ExportImportPanel.jsx:35-66 | the file is named exactly `conversations-<date>.json`, `.md` or `.csv`, with the matching MIME type; its content is the stringified export set, its Markdown, or its CSV |
| ExportImport.Normalize | client/src/components/ExportImportPanel.jsx:111-117 | a falsy id, title or timestamp is replaced by the fresh id, `Imported Chat` or the fresh time; the count is a non-zero `messageCount`, else the length of `messages`, else 0; missing messages become `[]` |
| ExportImport.NormalizeIdempotent | client/src/components/ExportImportPanel.jsx:111-117 | normalising an already normalised conversation changes nothing, whatever fresh id and time are on offer |
| ExportImport.NormalizedIsFixed | client/src/components/ExportImportPanel.jsx:111-117 | a conversation with every field set and truthy is given back unchanged by normalising its record |
| ExportImport.NormalizeAll | client/src/components/ExportImportPanel.jsx:111-117 | one conversation per record, in order, each normalised with its own fresh id and time |
| ExportImport.Import | client/src/components/ExportImportPanel.jsx:89-127 | no file, a name not ending in `.json`, a syntax error (reported as `Failed to import: ` and the parser's message) and a non-array value set an error status and import nothing; an array is imported normalised with a success status |
| ExportImport.NonArrayRejected | client/src/components/ExportImportPanel.jsx:102-104 | a parsed value that is not an array reports `Failed to import: Invalid JSON format` |
| ExportImport.ImportCountsRecords | client/src/components/ExportImportPanel.jsx:119-120 | the success message counts the records, and one conversation is imported per record |
| ExportImport.JsonRoundTrip | client/src/components/ExportImportPanel.jsx:35-127 | when parsing the JSON text gives back the records of the exported conversations, importing the JSON export of normalised conversations succeeds and yields exactly the export set |
| JsText.TrimEmptyIffBlank | server/src/services/ollamaService.js:156 | `line.trim()` is empty exactly when every character is whitespace |
| JsText.JoinSplit | server/src/services/ollamaService.js:152 | joining the pieces of a split with the separator gives back the text |
| JsText.SplitJoin | server/src/services/ollamaService.js:152 | splitting a join of separator-free pieces gives back the pieces |
| JsText.UndoubleDoubleQuotes | client/src/components/ExportImportPanel.jsx:61 | a CSV reader undoing the quote doubling recovers the field text |
| JsText.DecimalRoundTrip | client/src/components/ExportImportPanel.jsx:61 | the decimal rendering of a count reads back as the count |

## Left out

- HTTP transport is not modelled: the axios calls, their timeouts, and the Node stream event emitter. Each call is replaced by its outcome (`TagsOutcome`, `PostOutcome`, `StreamPost`, `SendResult`).
- `client/src/services/chatService.js` is not modelled. It holds thin axios wrappers; the page receives their settled values directly.
- `JSON.parse` and `JSON.stringify` are function parameters. A parse yields a `Frame`, a `Parsed` value or nothing. Non-string `content`, `error` or `title` values and `null` array elements are outside the model.
- `uuid`, `crypto.randomUUID`, `new Date()`, `toISOString` and `toLocaleString` are supplied values or function parameters. The `RangeError` of `toISOString` on an invalid date is not modelled.
- Characters are Unicode scalar values. JavaScript strings count UTF-16 code units, so `slice(0, 100)` differs on text outside the Basic Multilingual Plane. Decoding a byte chunk with `chunk.toString()` is also not modelled: chunks arrive as text.
- `onData` is assumed not to throw. A throwing callback would be swallowed by the per-line `try` and skip the error check for that line.
- The `Failed to process message`, `Failed to retrieve conversation` and `Failed to clear conversation` catch branches are not modelled. In the model no step throws: request fields are strings or absent, and the service never throws.
- The controller's `checkHealth` and `listModels` are not modelled as controller members. They forward the service result unchanged, and the service side is `Ollama.CheckConnection` and `Ollama.ListModels`.
- ChatController.SendMessage: the new conversation's model is `model || config.defaultModel`, and the configuration is required to have a non-empty default model, as `ConfigFromEnv` guarantees. The source re-reads `process.env.DEFAULT_MODEL || 'llama2'` on each request; the two agree while the environment is unchanged.
- `File.text()` failures are not modelled: the file's text is given.
- The browser download plumbing is not modelled (`Blob`, object URLs, the anchor, `onClose`), nor the delayed close after an import.
- `handleFileChange` and the export-format buttons are not modelled. They are plain state setters; the format and the file are inputs.
- React rendering, `MessageList.jsx`, `SettingsPanel.jsx`, the Tailwind configuration and the route table `server/src/routes/chat.js` are not part of this model.
- The interleaving of asynchronous state updates and requests is not modelled. Each handler is a sequential transition, and the page's send reads the state as it was when the send began.
- ExportImport.CountOf: `messageCount` is an integer. `NaN`, fractions and non-numeric values are not modelled.

=== FILE: chat_controller.dfy ===
/** The server's chat controller: one conversation turn (`sendMessage`),
    lookup (`getConversation`) and removal (`clearConversation`) over the
    in-memory conversation store. */
module ChatController {
  import opened Wrappers
  import opened JsText
  import opened Messages
  import opened Ollama
  import opened ConversationStore

  /** `{ id, messages, createdAt, model }` */
  datatype Conversation = Conversation(id: Id, messages: seq<Message>, createdAt: Stamp, model: string)

  type Conversations = Store<Conversation>

  /** Every stored conversation sits under its own id. */
  ghost predicate IdsMatchKeys(store: Conversations) {
    forall k :: k in store.entries ==> store.entries[k].id == k
  }

  /** What holds of the store between requests, starting from `new Map()`. */
  ghost predicate StoreInvariant(store: Conversations) {
    store.Valid() && store.Size() <= Capacity && IdsMatchKeys(store)
  }

  lemma EmptyStoreInvariant()
    ensures StoreInvariant(Empty<Conversation>())
  {
  }

  /** The fields of `req.body`. */
  datatype SendRequest = SendRequest(message: Option<string>, model: Option<string>, conversationId: Option<Id>)

  /** The values `uuidv4()` and `new Date()` produce during one turn. */
  datatype Fresh = Fresh(conversationId: Id, createdAt: Stamp,
                         userId: Id, userStamp: Stamp,
                         assistantId: Id, assistantStamp: Stamp)

  /** The response of `sendMessage`. */
  datatype SendReply =
    | BadRequest(error: string)
    | UpstreamFailed(result: ChatResult)
    | Sent(conversationId: Id, message: Message, model: string)

  /** The HTTP status `sendMessage` answers with. */
  function SendStatus(r: SendReply): int {
    match r
    case BadRequest(_) => 400
    case UpstreamFailed(_) => 500
    case Sent(_, _, _) => 200
  }

  /** The reply, the store afterwards, and the request sent upstream (none
      when validation stops the turn first). */
  datatype Turn = Turn(reply: SendReply, store: Conversations, upstream: Option<ChatRequest>)

  /** `!message || message.trim().length === 0` */
  predicate MissingMessage(message: Option<string>) {
    !Truthy(message) || IsBlank(message.value)
  }

  /** Whether the request names a conversation the store holds. */
  predicate Continues(store: Conversations, req: SendRequest) {
    Truthy(req.conversationId) && Has(store, req.conversationId.value)
  }

  /** The conversation a turn works on: the stored one when the request
      names it, otherwise a new one with the requested model or the
      default. The default is never empty: `ConfigFromEnv` falls back to
      `llama2`. */
  function Pick(config: Config, store: Conversations, req: SendRequest, ids: Fresh): (c: Conversation)
    requires config.defaultModel != []
    ensures Continues(store, req) ==> Get(store, req.conversationId.value) == Some(c)
    ensures !Continues(store, req) ==>
      c == Conversation(ids.conversationId, [], ids.createdAt, OrElse(req.model, config.defaultModel))
    ensures !Continues(store, req) ==> c.model != []
  {
    if Continues(store, req) then store.entries[req.conversationId.value]
    else Conversation(ids.conversationId, [], ids.createdAt, OrElse(req.model, config.defaultModel))
  }

  function UserMessage(ids: Fresh, message: string): Message {
    Message(ids.userId, User, Some(message), ids.userStamp)
  }

  function AssistantMessage(ids: Fresh, response: Option<string>): Message {
    Message(ids.assistantId, Assistant, response, ids.assistantStamp)
  }

  /** `sendMessage`: validate, get or create the conversation, push the user
      message, ask the model server (`post` is what the HTTP call yields),
      and on success push the assistant message and save with eviction. */
  function SendMessage(config: Config, store: Conversations, req: SendRequest,
                       ids: Fresh, post: PostOutcome): (t: Turn)
    requires config.defaultModel != []
    requires store.Valid()
    ensures t.reply.BadRequest? <==> MissingMessage(req.message)
    ensures t.reply.BadRequest? ==> t.reply.error == "Message is required" && t.store == store && t.upstream == None
    ensures StoreInvariant(store) ==> StoreInvariant(t.store)
  {
    if MissingMessage(req.message) then Turn(BadRequest("Message is required"), store, None)
    else
      var message := req.message.value;
      var conv := Pick(config, store, req, ids);
      var withUser := conv.(messages := conv.messages + [UserMessage(ids, message)]);
      var x := GenerateResponse(config, message, Some(withUser.model), withUser.messages, post);
      if !x.result.Reply? then
        // The stored object was mutated in place before the call failed.
        var kept := if Continues(store, req) then Set(store, req.conversationId.value, withUser) else store;
        Turn(UpstreamFailed(x.result), kept, Some(x.request))
      else
        var assistant := AssistantMessage(ids, x.result.response);
        var saved := withUser.(messages := withUser.messages + [assistant]);
        var after := Save(store, saved.id, saved);
        assert StoreInvariant(store) ==> StoreInvariant(after) by {
          if StoreInvariant(store) {
            SaveWithinCapacity(store, saved.id, saved);
          }
        }
        Turn(Sent(saved.id, assistant, x.result.model), after, Some(x.request))
  }

  /** A named, stored conversation is continued: the reply carries the same
      id, and the request's model is ignored in favour of the stored one. */
  lemma ContinuedConversationKeepsId(config: Config, store: Conversations, req: SendRequest,
                                     ids: Fresh, post: PostOutcome)
    requires config.defaultModel != []
    requires StoreInvariant(store)
    requires !MissingMessage(req.message) && Continues(store, req)
    ensures var t := SendMessage(config, store, req, ids, post);
      && t.upstream.Some?
      && t.upstream.value.model == store.entries[req.conversationId.value].model
      && (t.reply.Sent? ==> t.reply.conversationId == req.conversationId.value)
  {
  }

  /** Otherwise a new conversation is started under a fresh id, with the
      requested model or, when none is given, the configured default. */
  lemma NewConversationUsesFreshId(config: Config, store: Conversations, req: SendRequest,
                                   ids: Fresh, post: PostOutcome)
    requires config.defaultModel != []
    requires store.Valid()
    requires !MissingMessage(req.message) && !Continues(store, req)
    ensures var t := SendMessage(config, store, req, ids, post);
      && t.upstream.Some?
      && t.upstream.value.model == OrElse(req.model, config.defaultModel)
      && (t.reply.Sent? ==> t.reply.conversationId == ids.conversationId)
  {
  }

  /** A successful turn appends exactly the user message and then the
      assistant message, whose content is the model's response and which is
      the message the reply returns. */
  lemma SuccessAppendsTwoMessages(config: Config, store: Conversations, req: SendRequest,
                                  ids: Fresh, post: PostOutcome)
    requires config.defaultModel != []
    requires StoreInvariant(store)
    requires SendMessage(config, store, req, ids, post).reply.Sent?
    ensures var t := SendMessage(config, store, req, ids, post);
      var before := Pick(config, store, req, ids);
      && t.reply.message.role == Assistant
      && Get(t.store, t.reply.conversationId).Some?
      && Get(t.store, t.reply.conversationId).value.messages
           == before.messages + [UserMessage(ids, req.message.value), t.reply.message]
      && t.reply.message == AssistantMessage(ids, GenerateResponse(config, req.message.value, Some(before.model),
           before.messages + [UserMessage(ids, req.message.value)], post).result.response)
  {
    var before := Pick(config, store, req, ids);
    var message := req.message.value;
    var withUser := before.(messages := before.messages + [UserMessage(ids, message)]);
    var x := GenerateResponse(config, message, Some(withUser.model), withUser.messages, post);
    var saved := withUser.(messages := withUser.messages + [AssistantMessage(ids, x.result.response)]);
    SaveWithinCapacity(store, saved.id, saved);
  }

  /** On an upstream failure the reply is the 500 carrying the service's
      result; a new conversation is not stored, and a stored one keeps the
      user message (without an assistant message) in its old place. */
  lemma FailureStoresNoReply(config: Config, store: Conversations, req: SendRequest,
                             ids: Fresh, post: PostOutcome)
    requires config.defaultModel != []
    requires store.Valid()
    requires SendMessage(config, store, req, ids, post).reply.UpstreamFailed?
    ensures var t := SendMessage(config, store, req, ids, post);
      && SendStatus(t.reply) == 500
      && t.reply.result.ChatFailed?
      && t.reply.result == GenerateResponse(config, req.message.value, Some(Pick(config, store, req, ids).model),
           Pick(config, store, req, ids).messages + [UserMessage(ids, req.message.value)], post).result
      && (!Continues(store, req) ==> t.store == store)
      && (Continues(store, req) ==>
            && t.store.keys == store.keys
            && Get(t.store, req.conversationId.value).value.messages
                 == store.entries[req.conversationId.value].messages + [UserMessage(ids, req.message.value)])
  {
  }

  /** Quirk: the user message is already in the history handed to the
      service, which appends it once more, so the model server receives the
      user turn twice in a row. */
  lemma UpstreamSeesUserTurnTwice(config: Config, store: Conversations, req: SendRequest,
                                  ids: Fresh, post: PostOutcome)
    requires config.defaultModel != []
    requires store.Valid() && !MissingMessage(req.message)
    ensures var t := SendMessage(config, store, req, ids, post);
      var sent := t.upstream.value.messages;
      && t.upstream.Some?
      && |sent| == |Pick(config, store, req, ids).messages| + 2
      && sent[|sent| - 2] == ChatMessage(User, Some(req.message.value))
      && sent[|sent| - 1] == ChatMessage(User, Some(req.message.value))
  {
  }

  /** Scenario: continuing a stored conversation of two messages with a
      successful turn leaves it with four. */
  lemma ContinuingTwoMessagesGivesFour(config: Config, store: Conversations, req: SendRequest,
                                       ids: Fresh, data: Frame)
    requires config.defaultModel != []
    requires StoreInvariant(store)
    requires !MissingMessage(req.message) && Continues(store, req)
    requires |store.entries[req.conversationId.value].messages| == 2
    requires data.message.Some?
    ensures var t := SendMessage(config, store, req, ids, Answered(Some(data)));
      && t.reply.Sent?
      && |Get(t.store, req.conversationId.value).value.messages| == 4
  {
    SuccessAppendsTwoMessages(config, store, req, ids, Answered(Some(data)));
    ContinuedConversationKeepsId(config, store, req, ids, Answered(Some(data)));
  }

  /** The response of `getConversation`. */
  datatype GetReply = NotFound(error: string) | Found(conversation: Conversation)

  /** `getConversation` */
  function GetConversation(store: Conversations, id: Id): (r: GetReply)
    ensures r.NotFound? <==> !Has(store, id)
    ensures r.NotFound? ==> r.error == "Conversation not found"
    ensures r.Found? ==> Get(store, id) == Some(r.conversation)
  {
    match Get(store, id)
    case None => NotFound("Conversation not found")
    case Some(c) => Found(c)
  }

  /** A found conversation carries the id it was asked for. */
  lemma FoundHasRequestedId(store: Conversations, id: Id)
    requires StoreInvariant(store) && Has(store, id)
    ensures GetConversation(store, id) == Found(store.entries[id])
    ensures GetConversation(store, id).conversation.id == id
  {
  }

  /** The store after `clearConversation` and its success message. */
  datatype Cleared = Cleared(store: Conversations, message: string)

  /** `clearConversation`: delete when present, then report success. */
  function ClearConversation(store: Conversations, id: Id): (r: Cleared)
    requires store.Valid()
    ensures r.message == "Conversation cleared"
    ensures StoreInvariant(store) ==> StoreInvariant(r.store)
  {
    var after := if Has(store, id) then Delete(store, id) else store;
    assert StoreInvariant(store) ==> after.Size() <= store.Size() by {
      if Has(store, id) {
        SizeIsEntryCount(store);
        SizeIsEntryCount(after);
      }
    }
    Cleared(after, "Conversation cleared")
  }

  /** Clearing removes that conversation only and is idempotent. */
  lemma ClearRemovesOnlyThatId(store: Conversations, id: Id)
    requires store.Valid()
    ensures !Has(ClearConversation(store, id).store, id)
    ensures forall j :: j != id ==> Get(ClearConversation(store, id).store, j) == Get(store, j)
    ensures ClearConversation(ClearConversation(store, id).store, id) == ClearConversation(store, id)
  {
  }
}

=== FILE: chat_window.dfy ===
/** The chat page's state machine: the message list, the loading flag and
    the current conversation id, driven by sending a message, clearing the
    chat, and the start-up connection and model checks. */
module ChatWindow {
  import opened Wrappers
  import opened JsText
  import opened Messages
  import MessageInput
  import Ollama

  /** The component's state hooks. */
  datatype Chat = Chat(messages: seq<Message>, isLoading: bool, conversationId: Option<Id>,
                       isConnected: bool, selectedModel: string, availableModels: seq<string>)

  const Initial := Chat([], false, None, false, "llama2", [])

  const FailedToGetResponse := "Failed to get response"
  const ConnectFailure := "Error: Failed to connect to server. Please try again."

  /** `result.message` of a successful send, as far as the page reads it. */
  datatype ReplyMessage = ReplyMessage(id: Id, content: Option<string>, timestamp: Stamp)

  /** How `chatService.sendMessage` settles: a result with `success` true,
      one with it false, or a thrown error. */
  datatype SendResult =
    | Succeeded(conversationId: Option<Id>, message: Option<ReplyMessage>)
    | Failed(error: Option<string>)
    | Threw

  /** The arguments of `chatService.sendMessage`. */
  datatype SendCall = SendCall(content: string, model: string, conversationId: Option<Id>)

  /** The values `uuidv4()` and `new Date()` produce during one send. */
  datatype Supply = Supply(userId: Id, userStamp: Stamp, systemId: Id, systemStamp: Stamp)

  /** `!content.trim() || isLoading` */
  predicate SendBlocked(c: Chat, content: string) {
    IsBlank(content) || c.isLoading
  }

  function UserMessage(ids: Supply, content: string): Message {
    Message(ids.userId, User, Some(content), ids.userStamp)
  }

  function SystemMessage(ids: Supply, text: string): Message {
    Message(ids.systemId, System, Some(text), ids.systemStamp)
  }

  /** The part of `handleSendMessage` before the request: add the user
      message and raise the loading flag. */
  function BeginSend(c: Chat, content: string, ids: Supply): (r: Chat)
    ensures r.messages == c.messages + [UserMessage(ids, content)]
    ensures r.isLoading
    ensures r.(messages := c.messages, isLoading := c.isLoading) == c
  {
    c.(messages := c.messages + [UserMessage(ids, content)], isLoading := true)
  }

  /** The message a settled send appends, and the conversation id it
      leaves. A success without `message` throws while reading
      `result.message.id`, after `setConversationId` already ran. */
  function Reply(c: Chat, result: SendResult, ids: Supply): (r: (Message, Option<Id>))
    ensures r.0.role != User
    ensures result.Succeeded? ==> r.1 == result.conversationId
    ensures !result.Succeeded? ==> r.1 == c.conversationId
    ensures r.0.role == Assistant <==> result.Succeeded? && result.message.Some?
    ensures r.0.role == Assistant ==>
      var m := result.message.value;
      r.0 == Message(m.id, Assistant, m.content, m.timestamp)
    ensures r.0.role != Assistant ==>
      r.0.id == ids.systemId && r.0.role == System && r.0.timestamp == ids.systemStamp
    ensures result.Failed? ==> r.0.content == Some("Error: " + OrElse(result.error, FailedToGetResponse))
    ensures result.Threw? || (result.Succeeded? && result.message.None?) ==> r.0.content == Some(ConnectFailure)
  {
    match result
    case Succeeded(id, Some(m)) => (Message(m.id, Assistant, m.content, m.timestamp), id)
    case Succeeded(id, None) => (SystemMessage(ids, ConnectFailure), id)
    case Failed(error) => (SystemMessage(ids, "Error: " + OrElse(error, FailedToGetResponse)), c.conversationId)
    case Threw => (SystemMessage(ids, ConnectFailure), c.conversationId)
  }

  /** The part after the request settles: append the reply or error message,
      take the new conversation id on success, and drop the loading flag
      (`finally`). */
  function FinishSend(c: Chat, result: SendResult, ids: Supply): (r: Chat)
    ensures |r.messages| == |c.messages| + 1 && r.messages[..|c.messages|] == c.messages
    ensures !r.isLoading
    ensures result.Succeeded? ==> r.conversationId == result.conversationId
    ensures !result.Succeeded? ==> r.conversationId == c.conversationId
    ensures r.selectedModel == c.selectedModel && r.availableModels == c.availableModels
    ensures r.isConnected == c.isConnected
  {
    var (m, id) := Reply(c, result, ids);
    c.(messages := c.messages + [m], isLoading := false, conversationId := id)
  }

  /** The whole of `handleSendMessage`: the state afterwards and the request
      made, if any. The request carries the model and conversation id the
      page held when the send began. */
  datatype Sent = Sent(chat: Chat, call: Option<SendCall>)

  function HandleSend(c: Chat, content: string, result: SendResult, ids: Supply): (s: Sent)
    ensures SendBlocked(c, content) ==> s == Sent(c, None)
    ensures !SendBlocked(c, content) ==>
      && s.call == Some(SendCall(content, c.selectedModel, c.conversationId))
      && |s.chat.messages| == |c.messages| + 2
      && s.chat.messages[..|c.messages|] == c.messages
      && s.chat.messages[|c.messages|] == UserMessage(ids, content)
    ensures !s.chat.isLoading || s.chat == c
  {
    if SendBlocked(c, content) then Sent(c, None)
    else
      var begun := BeginSend(c, content, ids);
      var done := FinishSend(begun, result, ids);
      assert done.messages[..|c.messages|] == begun.messages[..|c.messages|];
      Sent(done, Some(SendCall(content, c.selectedModel, c.conversationId)))
  }

  /** A success result takes its conversation id and appends one assistant
      message with the result's id and content after the user message. */
  lemma SendSuccess(c: Chat, content: string, id: Option<Id>, m: ReplyMessage, ids: Supply)
    requires !SendBlocked(c, content)
    ensures var s := HandleSend(c, content, Succeeded(id, Some(m)), ids).chat;
      && s.conversationId == id
      && s.messages == c.messages + [UserMessage(ids, content), Message(m.id, Assistant, m.content, m.timestamp)]
      && !s.isLoading
  {
  }

  /** A failure result keeps the user message and appends one system
      message naming the error, or a fixed text when there is none. */
  lemma SendFailure(c: Chat, content: string, error: Option<string>, ids: Supply)
    requires !SendBlocked(c, content)
    ensures var s := HandleSend(c, content, Failed(error), ids).chat;
      && s.conversationId == c.conversationId
      && s.messages == c.messages + [UserMessage(ids, content), SystemMessage(ids, "Error: " + OrElse(error, FailedToGetResponse))]
      && (!Truthy(error) ==> s.messages[|s.messages| - 1].content == Some("Error: Failed to get response"))
      && !s.isLoading
  {
    assert "Error: " + FailedToGetResponse == "Error: Failed to get response";
  }

  /** A thrown error appends the fixed connection-failure message. */
  lemma SendThrew(c: Chat, content: string, ids: Supply)
    requires !SendBlocked(c, content)
    ensures var s := HandleSend(c, content, Threw, ids).chat;
      && s.conversationId == c.conversationId
      && s.messages == c.messages + [UserMessage(ids, content), SystemMessage(ids, ConnectFailure)]
      && !s.isLoading
  {
  }

  /** Quirk: a success result without a message still moves the page to
      the returned conversation, then reports a connection failure. */
  lemma SuccessWithoutMessage(c: Chat, content: string, id: Option<Id>, ids: Supply)
    requires !SendBlocked(c, content)
    ensures var s := HandleSend(c, content, Succeeded(id, None), ids).chat;
      && s.conversationId == id
      && s.messages == c.messages + [UserMessage(ids, content), SystemMessage(ids, ConnectFailure)]
  {
  }

  /** `handleClearChat`: empty the list and forget the conversation id; the
      server is asked to clear only when there was an id to clear. */
  datatype Cleared = Cleared(chat: Chat, serverClear: Option<Id>)

  function ClearChat(c: Chat): (r: Cleared)
    ensures r.chat.messages == [] && r.chat.conversationId == None
    ensures r.serverClear.Some? <==> Truthy(c.conversationId)
    ensures r.serverClear.Some? ==> r.serverClear == c.conversationId
    ensures r.chat.isLoading == c.isLoading && r.chat.selectedModel == c.selectedModel
  {
    Cleared(c.(messages := [], conversationId := None),
            if Truthy(c.conversationId) then c.conversationId else None)
  }

  /** What `chatService.getModels` settles with. */
  datatype ModelsResult = ModelsOk(models: seq<string>) | ModelsNotOk

  /** The model-selection step of `fetchModels`: a non-empty list replaces
      the available models and selects its first entry. */
  function ApplyModels(c: Chat, result: ModelsResult): (r: Chat)
    ensures result.ModelsOk? && |result.models| > 0 ==>
      r.availableModels == result.models && r.selectedModel == result.models[0]
    ensures !(result.ModelsOk? && |result.models| > 0) ==> r == c
    ensures r.messages == c.messages && r.conversationId == c.conversationId
  {
    if result.ModelsOk? && |result.models| > 0 then
      c.(availableModels := result.models, selectedModel := result.models[0])
    else c
  }

  /** What `chatService.checkHealth` settles with. */
  datatype HealthResult = Health(success: bool) | HealthThrew

  /** `checkConnection` */
  function ApplyHealth(c: Chat, result: HealthResult): (r: Chat)
    ensures r.isConnected <==> result.Health? && result.success
    ensures r.(isConnected := c.isConnected) == c
  {
    c.(isConnected := result.Health? && result.success)
  }

  /** What `chatService.getModels` resolves with when the server answers
      with its `listModels` result, which the controller forwards as is. */
  function ModelsFromServer(r: Ollama.ModelsResult): ModelsResult {
    match r
    case ModelList(names) => ModelsOk(names)
    case ModelsUnavailable(_) => ModelsNotOk
  }

  /** What `chatService.checkHealth` resolves with when the server answers
      with its `checkConnection` result. */
  function HealthFromServer(r: Ollama.ConnectionResult): HealthResult {
    Health(r.Connected?)
  }

  /** End to end, the start-up checks follow the model server: the page
      shows connected exactly when `/api/tags` answered, and selects the
      first listed model name when there is one. */
  lemma PageFollowsServer(c: Chat, config: Ollama.Config, outcome: Ollama.TagsOutcome)
    ensures ApplyHealth(c, HealthFromServer(Ollama.CheckConnection(config, outcome))).isConnected
        <==> outcome.Fetched?
    ensures var after := ApplyModels(c, ModelsFromServer(Ollama.ListModels(config, outcome)));
      var names := if outcome.Fetched? then Ollama.ModelNames(outcome.body) else [];
      && (|names| > 0 ==> after.availableModels == names && after.selectedModel == names[0])
      && (|names| == 0 ==> after == c)
  {
  }

  /** A user action on the page. */
  datatype Action =
    | Send(content: string, result: SendResult, ids: Supply)
    | Clear

  function Act(c: Chat, a: Action): Chat {
    match a
    case Send(content, result, ids) => HandleSend(c, content, result, ids).chat
    case Clear => ClearChat(c).chat
  }

  function Run(c: Chat, actions: seq<Action>): Chat
    decreases |actions|
  {
    if |actions| == 0 then c else Run(Act(c, actions[0]), actions[1..])
  }

  /** Between handlers the page is idle and its list is a sequence of
      exchanges: a user message at each even position, answered at the
      next position by an assistant or system message. */
  ghost predicate Settled(c: Chat) {
    && !c.isLoading
    && |c.messages| % 2 == 0
    && forall i :: 0 <= i < |c.messages| ==> (c.messages[i].role == User <==> i % 2 == 0)
  }

  lemma InitialSettled()
    ensures Settled(Initial)
  {
  }

  /** Every handler keeps the page settled, so any run of sends and clears
      from the initial state leaves exchanges of one user message and one
      reply. */
  lemma {:induction false} RunSettled(c: Chat, actions: seq<Action>)
    requires Settled(c)
    ensures Settled(Run(c, actions))
    decreases |actions|
  {
    if |actions| > 0 {
      var next := Act(c, actions[0]);
      match actions[0] {
        case Send(content, result, ids) =>
        if !SendBlocked(c, content) {
          var s := next.messages;
          var n := |c.messages|;
          assert s[n].role == User;
          assert s[n + 1].role != User by {
            var (m, _) := Reply(BeginSend(c, content, ids), result, ids);
            assert s == c.messages + [UserMessage(ids, content), m];
          }
          forall i | 0 <= i < n ensures s[i] == c.messages[i] {
            assert s[..n][i] == s[i];
          }
        }
        case Clear =>
      }
      RunSettled(next, actions[1..]);
    }
  }

  /** The input box hands up only text that passes the page's own blank
      check, so a send from the box while the page is idle always starts a
      request. */
  lemma InputSendStartsRequest(input: MessageInput.Input, c: Chat, result: SendResult, ids: Supply)
    requires MessageInput.Submit(input, MessageInput.Props(c.isLoading, !c.isConnected)).sent.Some?
    ensures var text := MessageInput.Submit(input, MessageInput.Props(c.isLoading, !c.isConnected)).sent.value;
      HandleSend(c, text, result, ids).call == Some(SendCall(text, c.selectedModel, c.conversationId))
  {
  }
}

=== FILE: conversation_store.dfy ===
/** The server's in-memory `conversations` store: a JavaScript `Map`, which
    remembers the order in which keys were first inserted, capped at 100
    entries by evicting the earliest key after each save. */
module ConversationStore {
  import opened Wrappers
  import opened Messages

  /** The most conversations kept after a save. */
  const Capacity: nat := 100

  /** A `Map<Id, V>`: `keys` is the insertion order, `entries` the contents. */
  datatype Store<V> = Store(keys: seq<Id>, entries: map<Id, V>)
  {
    /** Every key is listed once, and exactly the stored keys are listed. */
    ghost predicate Valid() {
      && Distinct(keys)
      && (forall k :: k in entries <==> k in keys)
    }

    /** `map.size` */
    function Size(): nat {
      |keys|
    }
  }

  /** `new Map()` */
  function Empty<V>(): (s: Store<V>)
    ensures s.Valid() && s.Size() == 0
  {
    Store([], map[])
  }

  /** The listed keys of a valid store count its entries, so `Size` is the
      number of entries. */
  lemma SizeIsEntryCount<V>(s: Store<V>)
    requires s.Valid()
    ensures s.Size() == |s.entries|
  {
    DistinctCard(s.keys);
    assert s.entries.Keys == set k | k in s.keys;
  }

  lemma {:induction false} DistinctCard(keys: seq<Id>)
    requires Distinct(keys)
    ensures |set k | k in keys| == |keys|
  {
    if |keys| > 0 {
      var tail := keys[1..];
      HeadNotInTail(keys);
      DistinctCard(tail);
      assert (set k | k in keys) == (set k | k in tail) + {keys[0]} by {
        assert keys == [keys[0]] + tail;
      }
    }
  }

  /** `map.has(k)` */
  predicate Has<V>(s: Store<V>, k: Id) {
    k in s.entries
  }

  /** `map.get(k)`: absent keys give `undefined`. */
  function Get<V>(s: Store<V>, k: Id): (r: Option<V>)
    ensures r.Some? <==> Has(s, k)
    ensures r.Some? ==> r.value == s.entries[k]
  {
    if k in s.entries then Some(s.entries[k]) else None
  }

  /** `map.set(k, v)`: a new key goes to the end of the order, an existing
      key keeps its place and takes the new value. */
  function Set<V>(s: Store<V>, k: Id, v: V): (r: Store<V>)
    requires s.Valid()
    ensures r.Valid()
    ensures Get(r, k) == Some(v)
    ensures forall j :: j != k ==> Get(r, j) == Get(s, j)
    ensures Has(s, k) ==> r.keys == s.keys
    ensures !Has(s, k) ==> r.keys == s.keys + [k]
  {
    if k in s.entries then Store(s.keys, s.entries[k := v])
    else Store(s.keys + [k], s.entries[k := v])
  }

  /** `map.delete(k)`: drops the key and its entry; the others keep their
      order. Deleting an absent key changes nothing. */
  function Delete<V>(s: Store<V>, k: Id): (r: Store<V>)
    requires s.Valid()
    ensures r.Valid()
    ensures Get(r, k) == None
    ensures forall j :: j != k ==> Get(r, j) == Get(s, j)
    ensures r.keys == Without(s.keys, k)
    ensures !Has(s, k) ==> r == s
  {
    Store(Without(s.keys, k), s.entries - {k})
  }

  /** Deleting twice is deleting once. */
  lemma DeleteIdempotent<V>(s: Store<V>, k: Id)
    requires s.Valid()
    ensures Delete(Delete(s, k), k) == Delete(s, k)
  {
  }

  /** The save at the end of a successful turn: `set`, then, if the map
      holds more than `Capacity` entries, delete the key that
      `keys().next()` yields, i.e. the earliest one. */
  function Save<V>(s: Store<V>, k: Id, v: V): (r: Store<V>)
    requires s.Valid()
    ensures r.Valid()
  {
    var t := Set(s, k, v);
    if t.Size() > Capacity then Delete(t, t.keys[0]) else t
  }

  /** A save into a store within the cap leaves it within the cap, keeps the
      saved value, and, when it overflows, evicts exactly the earliest key
      of the store before the save. */
  lemma SaveWithinCapacity<V>(s: Store<V>, k: Id, v: V)
    requires s.Valid() && s.Size() <= Capacity
    ensures Save(s, k, v).Size() <= Capacity
    ensures Get(Save(s, k, v), k) == Some(v)
    ensures s.Size() < Capacity || Has(s, k) ==> Save(s, k, v) == Set(s, k, v)
    ensures s.Size() == Capacity && !Has(s, k) ==>
      && Save(s, k, v).keys == s.keys[1..] + [k]
      && !Has(Save(s, k, v), s.keys[0])
      && forall j :: j != s.keys[0] && j != k ==> Get(Save(s, k, v), j) == Get(s, j)
  {
    if s.Size() == Capacity && !Has(s, k) {
      SaveEvicts(s, k, v);
    } else {
      assert Set(s, k, v).Size() <= Capacity;
    }
  }

  /** The overflowing case: a new key saved into a full store. */
  lemma SaveEvicts<V>(s: Store<V>, k: Id, v: V)
    requires s.Valid() && s.Size() == Capacity && !Has(s, k)
    ensures Save(s, k, v) == Delete(Set(s, k, v), s.keys[0])
    ensures Save(s, k, v).keys == s.keys[1..] + [k]
  {
    var t := Set(s, k, v);
    assert t.keys == s.keys + [k];
    assert t.keys[0] == s.keys[0];
    assert s.keys[0] in s.keys;
    WithoutFirst(t.keys);
    assert t.keys[1..] == s.keys[1..] + [k];
  }

  /** Saving a key already stored does not move it in the order. */
  lemma ResaveKeepsPosition<V>(s: Store<V>, k: Id, v: V)
    requires s.Valid() && s.Size() <= Capacity && Has(s, k)
    ensures Save(s, k, v).keys == s.keys
  {
  }
}

=== FILE: export_import.dfy ===
/** The export/import panel: choosing conversations, serialising them as
    JSON, Markdown or CSV, and reading a JSON file of conversations back with
    defaults for missing fields. */
module ExportImport {
  import opened Wrappers
  import opened JsText
  import opened Messages

  /** A message as the panel reads it: `msg.role` and `msg.content`. */
  datatype Msg = Msg(role: string, content: Option<string>)

  /** A conversation as the panel holds it. Title, count and messages may be
      absent on conversations that were never normalised. */
  datatype Conv = Conv(id: Id, title: Option<string>, timestamp: Stamp,
                       messageCount: Option<int>, messages: Option<seq<Msg>>)

  /** `${x}` on a possibly-absent string. */
  function Show(o: Option<string>): string {
    match o
    case Some(s) => s
    case None => "undefined"
  }

  /** JavaScript truthiness of a possibly-absent number. */
  predicate NumberTruthy(o: Option<int>) {
    o.Some? && o.value != 0
  }

  /** `conv.messageCount || conv.messages?.length || 0` */
  function CountOf(messageCount: Option<int>, messages: Option<seq<Msg>>): (n: int)
    ensures NumberTruthy(messageCount) ==> n == messageCount.value
    ensures !NumberTruthy(messageCount) && messages.Some? ==> n == |messages.value|
    ensures !NumberTruthy(messageCount) && messages.None? ==> n == 0
  {
    if NumberTruthy(messageCount) then messageCount.value
    else if messages.Some? && |messages.value| != 0 then |messages.value|
    else 0
  }

  // ---------------------------------------------------------------------
  // Selection

  datatype Selection = Selection(selected: seq<Id>, selectAll: bool)

  const NoSelection := Selection([], false)

  /** `conversations.map(c => c.id)` */
  function Ids(convs: seq<Conv>): (r: seq<Id>)
    ensures |r| == |convs|
    ensures forall i :: 0 <= i < |convs| ==> r[i] == convs[i].id
  {
    seq(|convs|, i requires 0 <= i < |convs| => convs[i].id)
  }

  /** `handleSelectAll`: select every conversation, or clear the selection
      when the flag was set; the flag flips either way. */
  function SelectAll(s: Selection, convs: seq<Conv>): (r: Selection)
    ensures r.selectAll == !s.selectAll
    ensures s.selectAll ==> r.selected == []
    ensures !s.selectAll ==> r.selected == Ids(convs)
  {
    Selection(if s.selectAll then [] else Ids(convs), !s.selectAll)
  }

  /** `handleSelectConversation`: a selected id is removed and the
      select-all flag cleared; an unselected id is appended. */
  function Toggle(s: Selection, id: Id): (r: Selection)
    ensures id in s.selected ==> id !in r.selected && !r.selectAll
    ensures id !in s.selected ==> r.selected == s.selected + [id] && r.selectAll == s.selectAll
    ensures forall j :: j != id ==> (j in r.selected <==> j in s.selected)
  {
    if id in s.selected then Selection(Without(s.selected, id), false)
    else Selection(s.selected + [id], s.selectAll)
  }

  /** Toggling twice restores whether the id is selected, and leaves an
      originally unselected id's list exactly as it was. */
  lemma ToggleTwice(s: Selection, id: Id)
    ensures forall j :: j in Toggle(Toggle(s, id), id).selected <==> j in s.selected
    ensures id !in s.selected ==> Toggle(Toggle(s, id), id).selected == s.selected
  {
    if id !in s.selected {
      WithoutAppend(s.selected, [id], id);
      assert Without([id], id) == [];
      assert s.selected + [] == s.selected;
    }
  }

  // ---------------------------------------------------------------------
  // Export

  /** `conversations.filter(c => selected.includes(c.id))` */
  function Chosen(convs: seq<Conv>, selected: seq<Id>): (r: seq<Conv>)
    ensures |r| <= |convs|
    ensures forall c :: c in r <==> c in convs && c.id in selected
    ensures |convs| == 1 ==> r == if convs[0].id in selected then convs else []
    decreases |convs|
  {
    if |convs| == 0 then []
    else (if convs[0].id in selected then [convs[0]] else []) + Chosen(convs[1..], selected)
  }

  /** The filter works piece by piece: filtering a concatenation is
      concatenating the filtered pieces. With the one-element case in
      `Chosen`'s contract this fixes the result to the kept conversations
      in list order, duplicates included. */
  lemma {:induction false} ChosenAppend(a: seq<Conv>, b: seq<Conv>, selected: seq<Id>)
    ensures Chosen(a + b, selected) == Chosen(a, selected) + Chosen(b, selected)
    decreases |a|
  {
    if |a| == 0 {
      assert a + b == b;
    } else {
      assert (a + b)[0] == a[0];
      assert (a + b)[1..] == a[1..] + b;
      ChosenAppend(a[1..], b, selected);
    }
  }

  /** When every conversation is selected the filter keeps them all. */
  lemma {:induction false} ChosenAll(convs: seq<Conv>, selected: seq<Id>)
    requires forall i :: 0 <= i < |convs| ==> convs[i].id in selected
    ensures Chosen(convs, selected) == convs
    decreases |convs|
  {
    if |convs| > 0 {
      ChosenAll(convs[1..], selected);
      assert convs == [convs[0]] + convs[1..];
    }
  }

  /** The conversations `handleExport` writes: the selected ones in their
      list order, or all of them when nothing is selected. */
  function ExportSet(convs: seq<Conv>, s: Selection): (r: seq<Conv>)
    ensures |s.selected| == 0 ==> r == convs
    ensures |s.selected| > 0 ==> r == Chosen(convs, s.selected)
    ensures forall c :: c in r ==> c in convs
  {
    if |s.selected| > 0 then Chosen(convs, s.selected) else convs
  }

  /** Pressing select-all from the cleared state exports every
      conversation. */
  lemma SelectAllExportsEverything(convs: seq<Conv>)
    ensures ExportSet(convs, SelectAll(NoSelection, convs)) == convs
  {
    var ids := Ids(convs);
    assert forall i :: 0 <= i < |convs| ==> convs[i].id == ids[i];
    ChosenAll(convs, ids);
  }

  const CsvHeaderLine := "Title,Date,Messages,First Message"

  /** `conv.messages?.[0]?.content?.slice(0, 100) || ''` */
  function FirstMessage(messages: Option<seq<Msg>>): (r: string)
    ensures |r| <= 100
    ensures messages.Some? && |messages.value| > 0 && messages.value[0].content.Some? ==>
      r == Take(messages.value[0].content.value, 100)
    ensures !(messages.Some? && |messages.value| > 0 && messages.value[0].content.Some?) ==> r == []
    ensures r != [] ==> StartsWith(messages.value[0].content.value, r)
  {
    if messages.Some? && |messages.value| > 0 && messages.value[0].content.Some? then
      Take(messages.value[0].content.value, 100)
    else []
  }

  /** The start of a CSV row: the title and the ISO date, each between
      quotes as they are, each followed by a comma. */
  function CsvRowHead(c: Conv, iso: Stamp -> string): string {
    "\"" + Show(c.title) + "\",\"" + iso(c.timestamp) + "\","
  }

  /** The end of a CSV row: the first message between quotes, its quotes
      doubled. */
  function CsvRowTail(c: Conv): string {
    "\"" + DoubleQuotes(FirstMessage(c.messages)) + "\""
  }

  /** One CSV row: title and ISO date quoted as they are, the count, and the
      first message quoted with its quotes doubled. `iso` stands for
      `new Date(t).toISOString()`. The row is one line unless the title,
      the date or the first message holds a line break. */
  function CsvRow(c: Conv, iso: Stamp -> string): (r: string)
    ensures StartsWith(r, CsvRowHead(c, iso))
    ensures EndsWith(r, CsvRowTail(c))
    ensures |r| >= |CsvRowHead(c, iso)| + |CsvRowTail(c)|
    ensures r[|CsvRowHead(c, iso)|..|r| - |CsvRowTail(c)|]
         == IntToDecimal(CountOf(c.messageCount, c.messages)) + ","
    ensures '\n' in r ==>
      '\n' in Show(c.title) || '\n' in iso(c.timestamp) || '\n' in FirstMessage(c.messages)
  {
    var head := CsvRowHead(c, iso);
    var count := IntToDecimal(CountOf(c.messageCount, c.messages));
    var tail := CsvRowTail(c);
    assert '\n' !in count by {
      forall i | 0 <= i < |count| ensures count[i] != '\n' {
        assert IsDigit(count[i]) || count[i] == '-';
      }
    }
    var r := head + (count + ",") + tail;
    assert r[..|head|] == head;
    assert r[|r| - |tail|..] == tail;
    assert r[|head|..|r| - |tail|] == count + ",";
    assert head + count + "," + tail == r;
    r
  }

  /** The Messages column reads back: between the quoted date and the
      quoted first message a CSV reader finds the decimal digits of the
      count and then the comma. */
  lemma CsvCountRecoverable(c: Conv, iso: Stamp -> string)
    requires CountOf(c.messageCount, c.messages) >= 0
    ensures var r := CsvRow(c, iso);
      var field := r[|CsvRowHead(c, iso)|..|r| - |CsvRowTail(c)|];
      && |field| >= 2 && field[|field| - 1] == ','
      && (forall i :: 0 <= i < |field| - 1 ==> IsDigit(field[i]))
      && DecimalValue(field[..|field| - 1]) == CountOf(c.messageCount, c.messages)
  {
    var n: nat := CountOf(c.messageCount, c.messages);
    var r := CsvRow(c, iso);
    var field := r[|CsvRowHead(c, iso)|..|r| - |CsvRowTail(c)|];
    assert field[..|field| - 1] == NatToDecimal(n);
    DecimalRoundTrip(n);
  }

  function CsvRows(convs: seq<Conv>, iso: Stamp -> string): (r: seq<string>)
    ensures |r| == |convs|
    ensures forall i :: 0 <= i < |convs| ==> r[i] == CsvRow(convs[i], iso)
  {
    seq(|convs|, i requires 0 <= i < |convs| => CsvRow(convs[i], iso))
  }

  /** The CSV file: the header line, then the rows joined by line breaks.
      With nothing to export it is the header line alone. */
  function Csv(convs: seq<Conv>, iso: Stamp -> string): (r: string)
    ensures StartsWith(r, CsvHeaderLine + "\n")
    ensures |convs| == 0 ==> r == CsvHeaderLine + "\n"
  {
    var head := CsvHeaderLine + "\n";
    assert (head + Join(CsvRows(convs, iso), "\n"))[..|head|] == head;
    head + Join(CsvRows(convs, iso), "\n")
  }

  /** Read line by line, the CSV is the header and then one row per
      conversation, provided no title, date or first message holds a line
      break. */
  lemma CsvLines(convs: seq<Conv>, iso: Stamp -> string)
    requires |convs| > 0
    requires forall i :: 0 <= i < |convs| ==>
      '\n' !in Show(convs[i].title) && '\n' !in iso(convs[i].timestamp) && '\n' !in FirstMessage(convs[i].messages)
    ensures Split(Csv(convs, iso), '\n') == [CsvHeaderLine] + CsvRows(convs, iso)
  {
    var rows := CsvRows(convs, iso);
    var lines := [CsvHeaderLine] + rows;
    assert lines[1..] == rows;
    assert Join(lines, "\n") == Csv(convs, iso);
    forall i | 0 <= i < |lines| ensures '\n' !in lines[i] {
      if i > 0 {
        assert lines[i] == CsvRow(convs[i - 1], iso);
      }
    }
    SplitJoin(lines, '\n');
  }

  /** The first-message field holds at most 100 characters of the first
      message, and a CSV reader undoing the quote doubling gets them back. */
  lemma CsvFirstMessageRecoverable(messages: seq<Msg>, content: string)
    requires |messages| > 0 && messages[0].content == Some(content)
    ensures UndoubleQuotes(DoubleQuotes(FirstMessage(Some(messages)))) == Take(content, 100)
  {
    UndoubleDoubleQuotes(FirstMessage(Some(messages)));
  }

  /** `**role:** content` */
  function MarkdownMessage(m: Msg): (r: string)
    ensures StartsWith(r, "**" + m.role + ":** ")
    ensures r[|"**" + m.role + ":** "|..] == Show(m.content)
  {
    var tag := "**" + m.role + ":** ";
    assert (tag + Show(m.content))[..|tag|] == tag;
    assert (tag + Show(m.content))[|tag|..] == Show(m.content);
    tag + Show(m.content)
  }

  function MarkdownMessages(msgs: seq<Msg>): (r: seq<string>)
    ensures |r| == |msgs|
    ensures forall i :: 0 <= i < |msgs| ==> r[i] == MarkdownMessage(msgs[i])
  {
    seq(|msgs|, i requires 0 <= i < |msgs| => MarkdownMessage(msgs[i]))
  }

  /** `# title` and a blank line. */
  function MarkdownHeading(c: Conv): string {
    "# " + Show(c.title) + "\n\n"
  }

  const MarkdownRule := "\n\n---\n\n"

  /** One conversation's section; `locale` stands for
      `new Date(t).toLocaleString()`. Between the heading and the closing
      rule stand the date line, a blank line, and the messages separated by
      blank lines; a missing message list reads as an empty one. */
  function MarkdownSection(c: Conv, locale: Stamp -> string): (r: string)
    ensures StartsWith(r, MarkdownHeading(c))
    ensures EndsWith(r, MarkdownRule)
    ensures |r| >= |MarkdownHeading(c)| + |MarkdownRule|
    ensures r[|MarkdownHeading(c)|..|r| - |MarkdownRule|]
         == "Date: " + locale(c.timestamp) + "\n\n" + Join(MarkdownMessages(c.messages.GetOr([])), "\n\n")
  {
    var head := MarkdownHeading(c);
    var body := "Date: " + locale(c.timestamp) + "\n\n"
      + Join(MarkdownMessages(c.messages.GetOr([])), "\n\n");
    var r := head + body + MarkdownRule;
    assert r[..|head|] == head;
    assert r[|r| - |MarkdownRule|..] == MarkdownRule;
    assert r[|head|..|r| - |MarkdownRule|] == body;
    r
  }

  function MarkdownSections(convs: seq<Conv>, locale: Stamp -> string): (r: seq<string>)
    ensures |r| == |convs|
    ensures forall i :: 0 <= i < |convs| ==> r[i] == MarkdownSection(convs[i], locale)
  {
    seq(|convs|, i requires 0 <= i < |convs| => MarkdownSection(convs[i], locale))
  }

  /** The Markdown file: the sections joined by blank lines. */
  function Markdown(convs: seq<Conv>, locale: Stamp -> string): (r: string)
    ensures |convs| == 0 ==> r == []
    ensures |convs| == 1 ==> r == MarkdownSection(convs[0], locale)
  {
    Join(MarkdownSections(convs, locale), "\n\n")
  }

  /** The file of two lists is the file of the first, a blank line, and the
      file of the second: one section per conversation, in order. */
  lemma MarkdownAppend(a: seq<Conv>, b: seq<Conv>, locale: Stamp -> string)
    requires |a| > 0 && |b| > 0
    ensures Markdown(a + b, locale) == Markdown(a, locale) + "\n\n" + Markdown(b, locale)
  {
    assert MarkdownSections(a + b, locale) == MarkdownSections(a, locale) + MarkdownSections(b, locale);
    JoinAppend(MarkdownSections(a, locale), MarkdownSections(b, locale), "\n\n");
  }

  /** A conversation without a message list is written like one with an
      empty list. */
  lemma MarkdownMissingMessagesAsEmpty(c: Conv, locale: Stamp -> string)
    requires c.messages.None?
    ensures MarkdownSection(c, locale) == MarkdownSection(c.(messages := Some([])), locale)
  {
  }

  datatype Format = JsonFormat | MarkdownFormat | CsvFormat

  /** The file `handleExport` offers for download. */
  datatype ExportFile = ExportFile(content: string, filename: string, mime: string)

  /** `new Date().toISOString().split('T')[0]` for the given ISO text: the
      text up to its first `T`, or all of it when there is none. */
  function DatePart(nowIso: string): (r: string)
    ensures 'T' !in r
    ensures StartsWith(nowIso, r)
    ensures |r| < |nowIso| ==> nowIso[|r|] == 'T'
  {
    Split(nowIso, 'T')[0]
  }

  /** `handleExport`. `stringify` stands for `JSON.stringify(_, null, 2)`. */
  function Export(convs: seq<Conv>, s: Selection, format: Format,
                  stringify: seq<Conv> -> string, iso: Stamp -> string,
                  locale: Stamp -> string, nowIso: string): (f: ExportFile)
    ensures StartsWith(f.filename, "conversations-" + DatePart(nowIso))
    ensures format == JsonFormat ==> EndsWith(f.filename, ".json") && f.mime == "application/json"
    ensures format == MarkdownFormat ==> EndsWith(f.filename, ".md") && f.mime == "text/markdown"
    ensures format == CsvFormat ==> EndsWith(f.filename, ".csv") && f.mime == "text/csv"
    ensures format == JsonFormat ==> f.content == stringify(ExportSet(convs, s))
    ensures format == MarkdownFormat ==> f.content == Markdown(ExportSet(convs, s), locale)
    ensures format == CsvFormat ==> f.content == Csv(ExportSet(convs, s), iso)
    ensures format == JsonFormat ==> f.filename == "conversations-" + DatePart(nowIso) + ".json"
    ensures format == MarkdownFormat ==> f.filename == "conversations-" + DatePart(nowIso) + ".md"
    ensures format == CsvFormat ==> f.filename == "conversations-" + DatePart(nowIso) + ".csv"
  {
    var chosen := ExportSet(convs, s);
    var stem := "conversations-" + DatePart(nowIso);
    match format
    case JsonFormat => Named(stringify(chosen), stem, ".json", "application/json")
    case MarkdownFormat => Named(Markdown(chosen, locale), stem, ".md", "text/markdown")
    case CsvFormat => Named(Csv(chosen, iso), stem, ".csv", "text/csv")
  }

  function Named(content: string, stem: string, ext: string, mime: string): (f: ExportFile)
    ensures StartsWith(f.filename, stem) && EndsWith(f.filename, ext)
    ensures |f.filename| == |stem| + |ext|
    ensures f.content == content && f.mime == mime
  {
    assert (stem + ext)[..|stem|] == stem;
    assert (stem + ext)[|stem + ext| - |ext|..] == ext;
    ExportFile(content, stem + ext, mime)
  }

  // ---------------------------------------------------------------------
  // Import

  /** A conversation record as `JSON.parse` yields it: any field may be
      missing. */
  datatype Record = Record(id: Option<Id>, title: Option<string>, timestamp: Option<Stamp>,
                           messageCount: Option<int>, messages: Option<seq<Msg>>)

  /** The outcome of `JSON.parse` on the file text: a syntax error with its
      message, a value that is not an array, or an array of records. */
  datatype Parsed = SyntaxError(message: string) | NotArray | Records(records: seq<Record>)

  /** The chosen file's name and text. */
  datatype File = File(name: string, text: string)

  datatype StatusKind = ErrorStatus | SuccessStatus
  datatype Status = Status(kind: StatusKind, message: string)

  /** The status shown and the conversations handed to
      `onImportConversations`, if any. */
  datatype Imported = Imported(status: Status, conversations: Option<seq<Conv>>)

  const ImportedTitle := "Imported Chat"

  /** A conversation as an import leaves it: every field present, id,
      title and timestamp non-empty, and a zero count only on an empty
      message list. */
  predicate Normalized(c: Conv) {
    && c.id != [] && c.timestamp != [] && Truthy(c.title)
    && c.messages.Some? && c.messageCount.Some?
    && (c.messageCount.value == 0 ==> c.messages.value == [])
  }

  /** The record transform: `||` defaults for id (`crypto.randomUUID()`),
      title, timestamp (`new Date().toISOString()`), count and messages. */
  function Normalize(r: Record, freshId: Id, now: Stamp): (c: Conv)
    ensures c.id == OrElse(r.id, freshId) && c.timestamp == OrElse(r.timestamp, now)
    ensures c.title == Some(OrElse(r.title, ImportedTitle))
    ensures c.messages == Some(r.messages.GetOr([]))
    ensures c.messageCount == Some(CountOf(r.messageCount, r.messages))
    ensures freshId != [] && now != [] ==> Normalized(c)
  {
    Conv(OrElse(r.id, freshId), Some(OrElse(r.title, ImportedTitle)), OrElse(r.timestamp, now),
         Some(CountOf(r.messageCount, r.messages)), Some(r.messages.GetOr([])))
  }

  /** A conversation written back as a record, as exporting to JSON and
      importing again would read it. */
  function AsRecord(c: Conv): Record {
    Record(Some(c.id), c.title, Some(c.timestamp), c.messageCount, c.messages)
  }

  function AsRecords(cs: seq<Conv>): (rs: seq<Record>)
    ensures |rs| == |cs|
    ensures forall i :: 0 <= i < |cs| ==> rs[i] == AsRecord(cs[i])
  {
    seq(|cs|, i requires 0 <= i < |cs| => AsRecord(cs[i]))
  }

  /** A normalised conversation read back as a record normalises to itself,
      whatever fresh values are on offer: no default is drawn. */
  lemma NormalizedIsFixed(c: Conv, freshId: Id, now: Stamp)
    requires Normalized(c)
    ensures Normalize(AsRecord(c), freshId, now) == c
  {
    assert Truthy(Some(c.id)) && Truthy(Some(c.timestamp));
    assert CountOf(c.messageCount, c.messages) == c.messageCount.value;
  }

  /** Normalising is idempotent. */
  lemma NormalizeIdempotent(r: Record, freshId: Id, now: Stamp, freshId2: Id, now2: Stamp)
    requires freshId != [] && now != []
    ensures Normalize(AsRecord(Normalize(r, freshId, now)), freshId2, now2) == Normalize(r, freshId, now)
  {
    NormalizedIsFixed(Normalize(r, freshId, now), freshId2, now2);
  }

  function NormalizeAll(records: seq<Record>, uuid: nat -> Id, now: nat -> Stamp): (cs: seq<Conv>)
    ensures |cs| == |records|
    ensures forall i :: 0 <= i < |records| ==> cs[i] == Normalize(records[i], uuid(i), now(i))
  {
    seq(|records|, i requires 0 <= i < |records| => Normalize(records[i], uuid(i), now(i)))
  }

  /** `handleImport`: no file, a name not ending in `.json`, a syntax error
      and a non-array value each set an error status and import nothing;
      an array is normalised record by record and imported. `uuid(i)` and
      `now(i)` are the fresh id and time drawn for the record at `i`. */
  function Import(file: Option<File>, parse: string -> Parsed,
                  uuid: nat -> Id, now: nat -> Stamp): (r: Imported)
    ensures file.None? ==> r == Imported(Status(ErrorStatus, "Please select a file first"), None)
    ensures file.Some? && !EndsWith(file.value.name, ".json") ==>
      r == Imported(Status(ErrorStatus, "Please select a JSON file"), None)
    ensures r.conversations.Some? <==>
      file.Some? && EndsWith(file.value.name, ".json") && parse(file.value.text).Records?
    ensures r.conversations.Some? ==>
      && r.status.kind == SuccessStatus
      && r.conversations.value == NormalizeAll(parse(file.value.text).records, uuid, now)
    ensures r.conversations.None? <==> r.status.kind == ErrorStatus
    ensures file.Some? && EndsWith(file.value.name, ".json") && parse(file.value.text).SyntaxError? ==>
      r.status == Status(ErrorStatus, "Failed to import: " + parse(file.value.text).message)
  {
    if file.None? then Imported(Status(ErrorStatus, "Please select a file first"), None)
    else if !EndsWith(file.value.name, ".json") then Imported(Status(ErrorStatus, "Please select a JSON file"), None)
    else
      match parse(file.value.text)
      case SyntaxError(message) => Imported(Status(ErrorStatus, "Failed to import: " + message), None)
      case NotArray => Imported(Status(ErrorStatus, "Failed to import: Invalid JSON format"), None)
      case Records(records) =>
        var cs := NormalizeAll(records, uuid, now);
        Imported(Status(SuccessStatus, "Successfully imported " + IntToDecimal(|cs|) + " conversations"), Some(cs))
  }

  /** A parsed value that is not an array is reported as an invalid format. */
  lemma NonArrayRejected(file: File, parse: string -> Parsed, uuid: nat -> Id, now: nat -> Stamp)
    requires EndsWith(file.name, ".json") && parse(file.text) == NotArray
    ensures Import(Some(file), parse, uuid, now).status == Status(ErrorStatus, "Failed to import: Invalid JSON format")
  {
  }

  /** The success message counts the records read; the imported list has
      one conversation per record, in order. */
  lemma ImportCountsRecords(file: File, parse: string -> Parsed, uuid: nat -> Id, now: nat -> Stamp)
    requires EndsWith(file.name, ".json") && parse(file.text).Records?
    ensures var r := Import(Some(file), parse, uuid, now);
      && |r.conversations.value| == |parse(file.text).records|
      && r.status.message == "Successfully imported " + IntToDecimal(|parse(file.text).records|) + " conversations"
  {
  }

  /** Export followed by import: a JSON file this panel wrote, read back by
      a `JSON.parse` that inverts `JSON.stringify` on it, imports exactly
      the exported conversations, in order, when they were normalised. */
  lemma JsonRoundTrip(convs: seq<Conv>, s: Selection, stringify: seq<Conv> -> string,
                      parse: string -> Parsed, iso: Stamp -> string, locale: Stamp -> string,
                      nowIso: string, uuid: nat -> Id, now: nat -> Stamp)
    requires forall c :: c in convs ==> Normalized(c)
    requires parse(stringify(ExportSet(convs, s))) == Records(AsRecords(ExportSet(convs, s)))
    ensures var f := Export(convs, s, JsonFormat, stringify, iso, locale, nowIso);
      var r := Import(Some(File(f.filename, f.content)), parse, uuid, now);
      && r.status.kind == SuccessStatus
      && r.conversations == Some(ExportSet(convs, s))
  {
    var cs := ExportSet(convs, s);
    var r := Import(Some(File(Export(convs, s, JsonFormat, stringify, iso, locale, nowIso).filename,
                              stringify(cs))), parse, uuid, now);
    var back := NormalizeAll(AsRecords(cs), uuid, now);
    forall i | 0 <= i < |cs| ensures back[i] == cs[i] {
      assert cs[i] in convs;
      NormalizedIsFixed(cs[i], uuid(i), now(i));
    }
    assert back == cs;
  }
}

=== FILE: js_text.dfy ===
/** The handful of JavaScript string operations the chat code relies on,
    written out over `seq<char>`: `trim`, `split`, `join`, `startsWith`,
    `endsWith`, `slice(0, n)`, the quote-doubling `replace`, decimal
    rendering of numbers, and `||` on possibly-absent strings. */
module JsText {
  import opened Wrappers

  /** The characters `String.prototype.trim` removes: the WhiteSpace and
      LineTerminator code points of ECMA-262 (section 12.2 and 12.3). */
  predicate IsWhitespace(c: char) {
    || c == '\t' || c == '\n' || c == '\U{000B}' || c == '\U{000C}' || c == '\r'
    || c == ' ' || c == '\U{00A0}' || c == '\U{1680}'
    || ('\U{2000}' <= c <= '\U{200A}')
    || c == '\U{2028}' || c == '\U{2029}' || c == '\U{202F}' || c == '\U{205F}'
    || c == '\U{3000}' || c == '\U{FEFF}'
  }

  /** Reference definition of a blank string: every character is whitespace. */
  ghost predicate AllWhitespace(s: string) {
    forall i :: 0 <= i < |s| ==> IsWhitespace(s[i])
  }

  /** `s.trimStart()`: the suffix left after dropping leading whitespace. */
  function TrimStart(s: string): (r: string)
    ensures |r| <= |s| && r == s[|s| - |r|..]
    ensures forall i :: 0 <= i < |s| - |r| ==> IsWhitespace(s[i])
    ensures r == [] || !IsWhitespace(r[0])
  {
    if |s| > 0 && IsWhitespace(s[0]) then TrimStart(s[1..]) else s
  }

  /** `s.trimEnd()`: the prefix left after dropping trailing whitespace. */
  function TrimEnd(s: string): (r: string)
    ensures |r| <= |s| && r == s[..|r|]
    ensures forall i :: |r| <= i < |s| ==> IsWhitespace(s[i])
    ensures r == [] || !IsWhitespace(r[|r| - 1])
  {
    if |s| > 0 && IsWhitespace(s[|s| - 1]) then TrimEnd(s[..|s| - 1]) else s
  }

  /** `s.trim()` */
  function Trim(s: string): string {
    TrimEnd(TrimStart(s))
  }

  /** `!s.trim()` (equivalently `s.trim().length === 0`), stated character
      by character; TrimEmptyIffBlank connects it to `Trim`. */
  predicate IsBlank(s: string) {
    |s| == 0 || (IsWhitespace(s[0]) && IsBlank(s[1..]))
  }

  lemma {:induction false} BlankIffAllWhitespace(s: string)
    ensures IsBlank(s) <==> AllWhitespace(s)
  {
    if |s| > 0 {
      BlankIffAllWhitespace(s[1..]);
      assert forall i :: 1 <= i < |s| ==> s[i] == s[1..][i - 1];
    }
  }

  /** A string trims to nothing exactly when it is blank. */
  lemma TrimEmptyIffBlank(s: string)
    ensures Trim(s) == [] <==> IsBlank(s)
  {
    BlankIffAllWhitespace(s);
    if Trim(s) == [] {
      assert TrimStart(s) == [];
    }
  }

  /** JavaScript truthiness of a possibly-absent string. */
  predicate Truthy(o: Option<string>) {
    o.Some? && o.value != []
  }

  /** `o || fallback` on a possibly-absent string. */
  function OrElse(o: Option<string>, fallback: string): (r: string)
    ensures Truthy(o) ==> r == o.value
    ensures !Truthy(o) ==> r == fallback
  {
    if Truthy(o) then o.value else fallback
  }

  /** `s.startsWith(p)` */
  predicate StartsWith(s: string, p: string) {
    |p| <= |s| && s[..|p|] == p
  }

  /** `s.endsWith(p)` */
  predicate EndsWith(s: string, p: string) {
    |p| <= |s| && s[|s| - |p|..] == p
  }

  /** `s.slice(0, n)` for a non-negative `n`. */
  function Take(s: string, n: nat): (r: string)
    ensures |r| <= n && |r| <= |s|
    ensures r == s[..|r|]
    ensures |s| <= n ==> r == s
    ensures n <= |s| ==> |r| == n
  {
    if n <= |s| then s[..n] else s
  }

  /** `parts.join(sep)` */
  function Join(parts: seq<string>, sep: string): string
  {
    if |parts| == 0 then []
    else if |parts| == 1 then parts[0]
    else parts[0] + sep + Join(parts[1..], sep)
  }

  /** `s.split(sep)` for a one-character separator: the maximal
      separator-free pieces, always at least one (`"".split(c)` is `[""]`). */
  function Split(s: string, sep: char): (r: seq<string>)
    ensures |r| >= 1
    ensures forall i :: 0 <= i < |r| ==> sep !in r[i]
    ensures |r[0]| <= |s| && r[0] == s[..|r[0]|]
    ensures |r[0]| < |s| ==> s[|r[0]|] == sep
  {
    if |s| == 0 then [[]]
    else
      var rest := Split(s[1..], sep);
      if s[0] == sep then [[]] + rest
      else [[s[0]] + rest[0]] + rest[1..]
  }

  /** Joining the pieces of a split with the separator gives back the input. */
  lemma {:induction false} JoinSplit(s: string, sep: char)
    ensures Join(Split(s, sep), [sep]) == s
  {
    if |s| > 0 {
      var rest := Split(s[1..], sep);
      JoinSplit(s[1..], sep);
      if s[0] == sep {
        assert Join([[]] + rest, [sep]) == [] + [sep] + Join(rest, [sep]);
        assert s == [sep] + s[1..];
      } else {
        var r := [[s[0]] + rest[0]] + rest[1..];
        if |rest| == 1 {
          assert Join(r, [sep]) == [s[0]] + rest[0];
        } else {
          assert Join(r, [sep]) == [s[0]] + rest[0] + [sep] + Join(rest[1..], [sep]);
          assert Join(rest, [sep]) == rest[0] + [sep] + Join(rest[1..], [sep]);
        }
        assert s == [s[0]] + s[1..];
      }
    }
  }

  /** A separator-free prefix is glued onto the first piece of what follows. */
  lemma {:induction false} SplitPrefix(x: string, t: string, sep: char)
    requires sep !in x
    ensures Split(x + t, sep) == [x + Split(t, sep)[0]] + Split(t, sep)[1..]
  {
    if |x| == 0 {
      var r := Split(t, sep);
      assert x + t == t;
      assert x + r[0] == r[0];
      assert r == [r[0]] + r[1..];
    } else {
      SplitPrefix(x[1..], t, sep);
      var r := Split(t, sep);
      assert (x + t)[0] == x[0] && x[0] != sep;
      assert (x + t)[1..] == x[1..] + t;
      assert Split(x + t, sep) == [[x[0]] + (x[1..] + r[0])] + r[1..];
      assert [x[0]] + (x[1..] + r[0]) == x + r[0];
    }
  }

  /** Splitting a join of separator-free pieces gives back the pieces. */
  lemma {:induction false} SplitJoin(parts: seq<string>, sep: char)
    requires |parts| >= 1
    requires forall i :: 0 <= i < |parts| ==> sep !in parts[i]
    ensures Split(Join(parts, [sep]), sep) == parts
  {
    if |parts| == 1 {
      SplitPrefix(parts[0], [], sep);
      assert parts[0] + [] == parts[0];
    } else {
      SplitJoin(parts[1..], sep);
      var tail := Join(parts[1..], [sep]);
      assert Join(parts, [sep]) == parts[0] + ([sep] + tail);
      SplitPrefix(parts[0], [sep] + tail, sep);
      assert ([sep] + tail)[1..] == tail;
      assert Split([sep] + tail, sep) == [[]] + parts[1..];
      assert parts[0] + [] == parts[0];
      assert parts == [parts[0]] + parts[1..];
    }
  }

  /** `join` distributes over concatenation of two non-empty lists. */
  lemma {:induction false} JoinAppend(a: seq<string>, b: seq<string>, sep: string)
    requires |a| >= 1 && |b| >= 1
    ensures Join(a + b, sep) == Join(a, sep) + sep + Join(b, sep)
  {
    if |a| > 1 {
      JoinAppend(a[1..], b, sep);
      assert (a + b)[1..] == a[1..] + b;
    } else {
      assert (a + b)[1..] == b;
    }
  }

  /** `s.replace(/"/g, '""')`: every double quote doubled, as in section 2,
      rule 7 of RFC 4180. */
  function DoubleQuotes(s: string): (r: string)
    ensures |r| >= |s|
    ensures '"' !in s ==> r == s
    ensures forall c :: c != '"' ==> (c in r <==> c in s)
  {
    if |s| == 0 then []
    else (if s[0] == '"' then "\"\"" else [s[0]]) + DoubleQuotes(s[1..])
  }

  /** The RFC 4180 reading of an escaped field body: a doubled quote stands
      for one quote. */
  function UndoubleQuotes(r: string): string
  {
    if |r| == 0 then []
    else if |r| >= 2 && r[0] == '"' && r[1] == '"' then "\"" + UndoubleQuotes(r[2..])
    else [r[0]] + UndoubleQuotes(r[1..])
  }

  /** Doubling quotes loses nothing: a CSV reader recovers the field text. */
  lemma {:induction false} UndoubleDoubleQuotes(s: string)
    ensures UndoubleQuotes(DoubleQuotes(s)) == s
  {
    if |s| > 0 {
      UndoubleDoubleQuotes(s[1..]);
      var d := DoubleQuotes(s[1..]);
      if s[0] == '"' {
        assert DoubleQuotes(s) == "\"\"" + d;
        assert (("\"\"" + d)[2..]) == d;
      } else {
        assert DoubleQuotes(s) == [s[0]] + d;
        assert ([s[0]] + d)[1..] == d;
      }
      assert s == [s[0]] + s[1..];
    }
  }

  predicate IsDigit(c: char) {
    '0' <= c <= '9'
  }

  function DigitChar(d: nat): (c: char)
    requires d < 10
    ensures IsDigit(c)
  {
    "0123456789"[d]
  }

  /** The numeric value of a string of decimal digits. */
  function DecimalValue(s: string): nat
    requires forall i :: 0 <= i < |s| ==> IsDigit(s[i])
  {
    if |s| == 0 then 0
    else 10 * DecimalValue(s[..|s| - 1]) + DigitValue(s[|s| - 1])
  }

  function DigitValue(c: char): nat
    requires IsDigit(c)
  {
    (c as int) - ('0' as int)
  }

  /** `String(n)` for a non-negative integer: its shortest decimal form. */
  function NatToDecimal(n: nat): (r: string)
    ensures |r| >= 1
    ensures forall i :: 0 <= i < |r| ==> IsDigit(r[i])
    ensures r[0] == '0' ==> n == 0
  {
    if n < 10 then [DigitChar(n)] else NatToDecimal(n / 10) + [DigitChar(n % 10)]
  }

  /** `String(n)` for any integer. */
  function IntToDecimal(n: int): (r: string)
    ensures n >= 0 ==> r == NatToDecimal(n)
    ensures forall i :: 0 <= i < |r| ==> IsDigit(r[i]) || r[i] == '-'
  {
    if n >= 0 then NatToDecimal(n) else "-" + NatToDecimal(-n)
  }

  /** Reading back the rendered digits gives the number. */
  lemma {:induction false} DecimalRoundTrip(n: nat)
    ensures DecimalValue(NatToDecimal(n)) == n
  {
    var r := NatToDecimal(n);
    if n >= 10 {
      DecimalRoundTrip(n / 10);
      assert r[..|r| - 1] == NatToDecimal(n / 10);
    }
  }
}

=== FILE: message_input.dfy ===
/** The message box of the chat page: a text field, a submit button and the
    Enter-to-send key binding, guarded by the parent's `isLoading` and
    `disabled` flags. */
module MessageInput {
  import opened Wrappers
  import opened JsText

  /** The parent's props that the guard reads. */
  datatype Props = Props(isLoading: bool, disabled: bool)

  /** The component's one piece of state, the `message` text. */
  datatype Input = Input(message: string)

  const Initial := Input([])

  /** The state after an event and the text handed to `onSend`, if any. */
  datatype Outcome = Outcome(input: Input, sent: Option<string>)

  /** `message.trim() && !isLoading && !disabled` */
  predicate CanSubmit(input: Input, props: Props)
    ensures CanSubmit(input, props) <==> Trim(input.message) != [] && !props.isLoading && !props.disabled
  {
    TrimEmptyIffBlank(input.message);
    !IsBlank(input.message) && !props.isLoading && !props.disabled
  }

  /** The submit button's `disabled` attribute
      (`!message.trim() || isLoading || disabled`): the negation of the
      submit guard. */
  predicate ButtonDisabled(input: Input, props: Props)
    ensures ButtonDisabled(input, props) <==> !CanSubmit(input, props)
  {
    IsBlank(input.message) || props.isLoading || props.disabled
  }

  /** The textarea's `disabled` attribute. While it is set no text can be
      submitted; while it is clear only the blank check decides. */
  predicate TextareaDisabled(props: Props)
    ensures TextareaDisabled(props) ==> forall text :: !CanSubmit(Input(text), props)
    ensures !TextareaDisabled(props) ==> forall text :: CanSubmit(Input(text), props) <==> !IsBlank(text)
  {
    props.isLoading || props.disabled
  }

  /** `handleSubmit`: when the guard holds, send the text as typed and clear
      the field; otherwise do nothing. */
  function Submit(input: Input, props: Props): (o: Outcome)
    ensures o.sent.Some? <==> CanSubmit(input, props)
    ensures o.sent.Some? ==> o.sent.value == input.message && o.input == Initial
    ensures o.sent.None? ==> o.input == input
  {
    if CanSubmit(input, props) then Outcome(Initial, Some(input.message)) else Outcome(input, None)
  }

  /** `onChange`: the field takes the edited text. */
  function Change(input: Input, text: string): (r: Input)
    ensures r.message == text
  {
    Input(text)
  }

  /** `handleKeyDown`: Enter without Shift submits; any other key leaves the
      state alone (its typing effect arrives as a `Change`). */
  function KeyDown(input: Input, props: Props, key: string, shiftKey: bool): (o: Outcome)
    ensures key == "Enter" && !shiftKey ==> o == Submit(input, props)
    ensures key != "Enter" || shiftKey ==> o == Outcome(input, None)
  {
    if key == "Enter" && !shiftKey then Submit(input, props) else Outcome(input, None)
  }

  /** The button is enabled exactly when pressing it sends. */
  lemma ButtonEnabledIffSubmitSends(input: Input, props: Props)
    ensures !ButtonDisabled(input, props) <==> Submit(input, props).sent.Some?
  {
  }

  /** While the textarea is disabled nothing can be sent. */
  lemma DisabledTextareaSendsNothing(input: Input, props: Props)
    requires TextareaDisabled(props)
    ensures Submit(input, props).sent == None
    ensures ButtonDisabled(input, props)
  {
  }

  /** Padding a non-blank text with whitespace keeps it non-blank. */
  lemma PaddedNotBlank(text: string)
    requires !IsBlank(text)
    ensures !IsBlank(" " + text + "\n")
  {
    BlankIffAllWhitespace(text);
    BlankIffAllWhitespace(" " + text + "\n");
    var i :| 0 <= i < |text| && !IsWhitespace(text[i]);
    assert (" " + text + "\n")[i + 1] == text[i];
  }

  /** What is sent is never blank, and a leading or trailing space is kept:
      the guard trims but the text sent is not trimmed. */
  lemma SentTextIsUntrimmed(text: string, props: Props)
    requires !props.isLoading && !props.disabled
    requires !IsBlank(text)
    ensures Submit(Input(" " + text + "\n"), props).sent == Some(" " + text + "\n")
  {
    PaddedNotBlank(text);
    assert CanSubmit(Input(" " + text + "\n"), props);
  }

  /** Typing a message and pressing Enter sends it and leaves an empty
      field; a second Enter then sends nothing. */
  lemma TypeThenEnter(text: string, props: Props)
    requires CanSubmit(Input(text), props)
    ensures var o := KeyDown(Change(Initial, text), props, "Enter", false);
      && o.sent == Some(text)
      && o.input == Initial
      && KeyDown(o.input, props, "Enter", false).sent == None
  {
  }
}

=== FILE: messages.dfy ===
/** Vocabulary shared by the server and the browser client: message roles,
    opaque identifiers and timestamps, and the chat message record. */
module Messages {
  import opened Wrappers

  /** Identifiers (uuid strings) and timestamps are opaque here: they are
      produced by `uuidv4`, `crypto.randomUUID` and `new Date()`, which the
      model receives as parameters. */
  type Id = string
  type Stamp = string

  datatype Role = User | Assistant | System

  /** `{ id, role, content, timestamp }`. The content is optional because an
      assistant reply copies the model server's `message.content`, which the
      server does not check for presence. */
  datatype Message = Message(id: Id, role: Role, content: Option<string>, timestamp: Stamp)

  /** No id is listed twice. */
  predicate Distinct(keys: seq<Id>) {
    forall i, j :: 0 <= i < j < |keys| ==> keys[i] != keys[j]
  }

  /** `keys` with every occurrence of `k` dropped, the rest in order. */
  function Without(keys: seq<Id>, k: Id): (r: seq<Id>)
    ensures forall j :: j in r <==> j in keys && j != k
    ensures Distinct(keys) ==> Distinct(r)
    ensures k !in keys ==> r == keys
    decreases |keys|
  {
    if |keys| == 0 then []
    else
      var rest := Without(keys[1..], k);
      if keys[0] == k then rest
      else
        assert Distinct(keys) ==> keys[0] !in keys[1..] by {
          if Distinct(keys) {
            HeadNotInTail(keys);
          }
        }
        assert keys == [keys[0]] + keys[1..];
        [keys[0]] + rest
  }

  lemma HeadNotInTail(keys: seq<Id>)
    requires |keys| > 0 && Distinct(keys)
    ensures keys[0] !in keys[1..]
    ensures Distinct(keys[1..])
  {
    var tail := keys[1..];
    forall i | 0 <= i < |tail| ensures tail[i] != keys[0] {
      assert tail[i] == keys[i + 1];
    }
    forall i, j | 0 <= i < j < |tail| ensures tail[i] != tail[j] {
      assert tail[i] == keys[i + 1] && tail[j] == keys[j + 1];
    }
  }

  /** Dropping the first of distinct ids leaves the rest. */
  lemma {:induction false} WithoutFirst(keys: seq<Id>)
    requires |keys| > 0 && Distinct(keys)
    ensures Without(keys, keys[0]) == keys[1..]
  {
    var tail := keys[1..];
    HeadNotInTail(keys);
    assert Without(tail, keys[0]) == tail;
  }

  /** Dropping an id from a concatenation drops it from each part. */
  lemma {:induction false} WithoutAppend(a: seq<Id>, b: seq<Id>, k: Id)
    ensures Without(a + b, k) == Without(a, k) + Without(b, k)
    decreases |a|
  {
    if |a| > 0 {
      WithoutAppend(a[1..], b, k);
      assert (a + b)[1..] == a[1..] + b;
      assert (a + b)[0] == a[0];
    } else {
      assert a + b == b;
    }
  }
}

=== FILE: ollama.dfy ===
/** The request/response side of the model-server client
    (server/src/services/ollamaService.js): configuration, construction of
    the upstream `messages` list, interpretation of a single-shot chat reply,
    of the model list, and the classification of transport failures into
    user-facing texts. The HTTP calls themselves are not modelled: each
    operation receives the call's outcome as a parameter. */
module Ollama {
  import opened Wrappers
  import opened JsText
  import opened Messages

  const FallbackBaseUrl := "http://localhost:11434"
  const FallbackModel := "llama2"

  /** `OLLAMA_BASE_URL` and `DEFAULT_MODEL` as the service reads them. */
  datatype Config = Config(baseUrl: string, defaultModel: string)

  /** Reads the two environment variables with `||` fallbacks, so an unset
      and an empty variable behave alike. */
  function ConfigFromEnv(baseUrlVar: Option<string>, modelVar: Option<string>): (c: Config)
    ensures c.baseUrl != [] && c.defaultModel != []
    ensures Truthy(modelVar) ==> c.defaultModel == modelVar.value
    ensures !Truthy(modelVar) ==> c.defaultModel == FallbackModel
    ensures Truthy(baseUrlVar) ==> c.baseUrl == baseUrlVar.value
    ensures !Truthy(baseUrlVar) ==> c.baseUrl == FallbackBaseUrl
  {
    Config(OrElse(baseUrlVar, FallbackBaseUrl), OrElse(modelVar, FallbackModel))
  }

  /** A `model = this.model` default parameter: only an absent argument is
      replaced, so unlike `||` an empty model name is kept. */
  function ResolveModel(config: Config, model: Option<string>): (r: string)
    ensures model.Some? ==> r == model.value
    ensures model.None? ==> r == config.defaultModel
    ensures Truthy(model) ==> r == OrElse(model, config.defaultModel)
  {
    model.GetOr(config.defaultModel)
  }

  // ---------------------------------------------------------------------
  // Upstream chat payload

  /** One `{ role, content }` entry of the upstream `messages` list. */
  datatype ChatMessage = ChatMessage(role: Role, content: Option<string>)

  /** The body posted to `/api/chat`. */
  datatype ChatRequest = ChatRequest(model: string, messages: seq<ChatMessage>, stream: bool)

  /** The history projected to role and content, in order, followed by the
      new user turn. */
  function BuildMessages(history: seq<Message>, message: string): (r: seq<ChatMessage>)
    ensures |r| == |history| + 1
    ensures forall i :: 0 <= i < |history| ==>
      r[i].role == history[i].role && r[i].content == history[i].content
    ensures r[|history|] == ChatMessage(User, Some(message))
  {
    seq(|history|, i requires 0 <= i < |history| => ChatMessage(history[i].role, history[i].content))
      + [ChatMessage(User, Some(message))]
  }

  // ---------------------------------------------------------------------
  // Upstream frames and results

  /** `message` of an upstream frame: `{ content }`. */
  datatype MessageField = MessageField(content: Option<string>)

  /** One JSON object from the model server: `{ message: { content }, done }`
      or `{ error }`. Absent properties are None; non-string values of
      `content` and `error` are not modelled. */
  datatype Frame = Frame(message: Option<MessageField>, done: Option<bool>, error: Option<string>)

  /** `data.message && data.message.content`: the fragment a frame carries,
      if it is a non-empty string. */
  function Fragment(f: Frame): (r: Option<string>)
    ensures r.Some? <==> f.message.Some? && Truthy(f.message.value.content)
    ensures r.Some? ==> r.value != [] && f.message.value.content == Some(r.value)
  {
    if f.message.Some? && Truthy(f.message.value.content) then f.message.value.content else None
  }

  /** `data.error` when truthy. */
  function ErrorOf(f: Frame): (r: Option<string>)
    ensures r.Some? <==> Truthy(f.error)
    ensures r.Some? ==> r.value != [] && f.error == r
  {
    if Truthy(f.error) then f.error else None
  }

  /** `data.done || false`: an absent `done` reads as false. */
  predicate DoneFlag(f: Frame)
    ensures f.done.None? ==> !DoneFlag(f)
    ensures f.done.Some? ==> (DoneFlag(f) <==> f.done.value)
  {
    f.done == Some(true)
  }

  /** The result object of `generateResponse` and `generateStreamResponse`:
      `{ success: true, response, model, done }` or `{ success: false, error }`. */
  datatype ChatResult =
    | Reply(response: Option<string>, model: string, done: Option<bool>)
    | ChatFailed(error: string)

  // ---------------------------------------------------------------------
  // Transport failures

  /** `error.response` of an axios failure: the status and `data.error`. */
  datatype HttpResponse = HttpResponse(status: Option<int>, dataError: Option<string>)

  /** An axios failure: the server's response if one arrived, the error
      `code` (`ECONNREFUSED`, ...) and `message`. */
  datatype HttpFailure = HttpFailure(response: Option<HttpResponse>, code: Option<string>, message: string)

  predicate IsTimeout(e: HttpFailure) {
    e.code == Some("ETIMEDOUT") || e.code == Some("ECONNABORTED")
  }

  predicate HasStatus(e: HttpFailure, status: int) {
    e.response.Some? && e.response.value.status == Some(status)
  }

  /** A template literal's rendering of a possibly-absent status. */
  function StatusText(status: Option<int>): string {
    match status
    case None => "undefined"
    case Some(n) => IntToDecimal(n)
  }

  /** `checkConnection`'s message. It looks only at the error code, whether
      or not a response arrived. */
  function ConnectionErrorText(baseUrl: string, e: HttpFailure): (r: string)
    ensures e.code == Some("ECONNREFUSED") ==>
      r == "Cannot connect to Ollama at " + baseUrl + ". Please start Ollama."
    ensures IsTimeout(e) ==>
      r == "Connection to Ollama timed out. Please check if Ollama is responsive."
    ensures e.code != Some("ECONNREFUSED") && !IsTimeout(e) ==>
      r == "Cannot connect to Ollama. Please ensure Ollama is running."
  {
    if e.code == Some("ECONNREFUSED") then
      "Cannot connect to Ollama at " + baseUrl + ". Please start Ollama."
    else if IsTimeout(e) then
      "Connection to Ollama timed out. Please check if Ollama is responsive."
    else
      "Cannot connect to Ollama. Please ensure Ollama is running."
  }

  /** `listModels`'s message: a 404 has a fixed text, another response
      prefers its own `error`, a refused connection names the server, and
      anything else keeps the transport's message (timeouts included). */
  function ListModelsErrorText(baseUrl: string, e: HttpFailure): (r: string)
    ensures HasStatus(e, 404) ==>
      r == "Ollama API endpoint not found. Please update Ollama to latest version."
    ensures e.response.Some? && !HasStatus(e, 404) ==>
      r == OrElse(e.response.value.dataError, "Ollama API error: " + StatusText(e.response.value.status))
    ensures e.response.None? && e.code == Some("ECONNREFUSED") ==>
      r == "Cannot connect to Ollama at " + baseUrl + "."
    ensures e.response.None? && e.code != Some("ECONNREFUSED") ==> r == e.message
  {
    match e.response
    case Some(resp) =>
      if resp.status == Some(404) then
        "Ollama API endpoint not found. Please update Ollama to latest version."
      else
        OrElse(resp.dataError, "Ollama API error: " + StatusText(resp.status))
    case None =>
      if e.code == Some("ECONNREFUSED") then "Cannot connect to Ollama at " + baseUrl + "."
      else e.message
  }

  /** `generateResponse`'s message. */
  function GenerateErrorText(baseUrl: string, e: HttpFailure): (r: string)
    ensures HasStatus(e, 404) ==> r == "Ollama API endpoint not found. Please check Ollama version."
    ensures HasStatus(e, 500) ==> r == OrElse(e.response.value.dataError, "Ollama server error")
    ensures e.response.Some? && !HasStatus(e, 404) && !HasStatus(e, 500) ==>
      r == OrElse(e.response.value.dataError, e.message)
    ensures e.response.None? && e.code == Some("ECONNREFUSED") ==>
      r == "Cannot connect to Ollama at " + baseUrl + ". Please start Ollama."
    ensures e.response.None? && IsTimeout(e) ==> r == "Request timed out. Please try again."
    ensures e.response.None? && e.code != Some("ECONNREFUSED") && !IsTimeout(e) ==>
      r == "Failed to generate response"
  {
    match e.response
    case Some(resp) =>
      if resp.status == Some(404) then "Ollama API endpoint not found. Please check Ollama version."
      else if resp.status == Some(500) then OrElse(resp.dataError, "Ollama server error")
      else OrElse(resp.dataError, e.message)
    case None =>
      if e.code == Some("ECONNREFUSED") then
        "Cannot connect to Ollama at " + baseUrl + ". Please start Ollama."
      else if IsTimeout(e) then "Request timed out. Please try again."
      else "Failed to generate response"
  }

  /** `generateStreamResponse`'s message for a failure before the stream
      opens. */
  function StreamSetupErrorText(baseUrl: string, e: HttpFailure): (r: string)
    ensures HasStatus(e, 404) ==> r == "Ollama API endpoint not found. Please check Ollama version."
    ensures HasStatus(e, 500) ==> r == OrElse(e.response.value.dataError, "Ollama server error")
    ensures e.response.Some? && !HasStatus(e, 404) && !HasStatus(e, 500) ==>
      r == OrElse(e.response.value.dataError, "HTTP error: " + StatusText(e.response.value.status))
    ensures e.response.None? && e.code == Some("ECONNREFUSED") ==>
      r == "Cannot connect to Ollama at " + baseUrl
    ensures e.response.None? && IsTimeout(e) ==> r == "Request timed out. Ollama may be overloaded."
    ensures e.response.None? && e.code != Some("ECONNREFUSED") && !IsTimeout(e) ==>
      r == "Failed to generate response"
  {
    match e.response
    case Some(resp) =>
      if resp.status == Some(404) then "Ollama API endpoint not found. Please check Ollama version."
      else if resp.status == Some(500) then OrElse(resp.dataError, "Ollama server error")
      else OrElse(resp.dataError, "HTTP error: " + StatusText(resp.status))
    case None =>
      if e.code == Some("ECONNREFUSED") then "Cannot connect to Ollama at " + baseUrl
      else if IsTimeout(e) then "Request timed out. Ollama may be overloaded."
      else "Failed to generate response"
  }

  /** Whatever the classifier, a response that carries a non-empty `error`
      and is not a 404 is reported with that text. */
  lemma ResponseErrorTextWins(baseUrl: string, e: HttpFailure)
    requires e.response.Some? && Truthy(e.response.value.dataError) && !HasStatus(e, 404)
    ensures ListModelsErrorText(baseUrl, e) == e.response.value.dataError.value
    ensures GenerateErrorText(baseUrl, e) == e.response.value.dataError.value
    ensures StreamSetupErrorText(baseUrl, e) == e.response.value.dataError.value
  {
  }

  // ---------------------------------------------------------------------
  // Operations

  /** One entry of `data.models` from `/api/tags`. */
  datatype ModelEntry = ModelEntry(name: string)

  /** The `/api/tags` body: `models` may be missing. */
  datatype TagsBody = TagsBody(models: Option<seq<ModelEntry>>)

  /** Outcome of the GET to `/api/tags`. */
  datatype TagsOutcome = Fetched(body: TagsBody) | TagsFailed(failure: HttpFailure)

  /** `{ success, models, connected }` or `{ success: false, error, connected: false }`. */
  datatype ConnectionResult = Connected(models: Option<seq<ModelEntry>>) | Disconnected(error: string)

  /** `{ success: true, models: [names], connected: true }` or the failure. */
  datatype ModelsResult = ModelList(names: seq<string>) | ModelsUnavailable(error: string)

  /** `checkConnection`: reachability, passing `data.models` through untouched. */
  function CheckConnection(config: Config, outcome: TagsOutcome): (r: ConnectionResult)
    ensures r.Connected? <==> outcome.Fetched?
    ensures r.Connected? ==> r.models == outcome.body.models
    ensures r.Disconnected? ==> r.error == ConnectionErrorText(config.baseUrl, outcome.failure)
  {
    match outcome
    case Fetched(body) => Connected(body.models)
    case TagsFailed(e) => Disconnected(ConnectionErrorText(config.baseUrl, e))
  }

  /** `data.models?.map(m => m.name) || []` */
  function ModelNames(body: TagsBody): (names: seq<string>)
    ensures body.models.None? ==> names == []
    ensures body.models.Some? ==> |names| == |body.models.value|
    ensures body.models.Some? ==> forall i :: 0 <= i < |names| ==> names[i] == body.models.value[i].name
  {
    match body.models
    case None => []
    case Some(ms) => seq(|ms|, i requires 0 <= i < |ms| => ms[i].name)
  }

  /** `listModels` */
  function ListModels(config: Config, outcome: TagsOutcome): (r: ModelsResult)
    ensures r.ModelList? <==> outcome.Fetched?
    ensures r.ModelList? ==> r.names == ModelNames(outcome.body)
    ensures r.ModelsUnavailable? ==> r.error == ListModelsErrorText(config.baseUrl, outcome.failure)
  {
    match outcome
    case Fetched(body) => ModelList(ModelNames(body))
    case TagsFailed(e) => ModelsUnavailable(ListModelsErrorText(config.baseUrl, e))
  }

  /** The health check and the model list read the same `/api/tags` call:
      the server is connected exactly when the list is available, and the
      listed names are those of the models the health check passes on. */
  lemma ConnectedExactlyWhenListed(config: Config, outcome: TagsOutcome)
    ensures CheckConnection(config, outcome).Connected? <==> ListModels(config, outcome).ModelList?
    ensures CheckConnection(config, outcome).Connected? ==>
      ListModels(config, outcome).names == ModelNames(TagsBody(CheckConnection(config, outcome).models))
  {
  }

  /** Outcome of the POST to `/api/chat` with `stream: false`: the response
      `data` (None when falsy) or a transport failure. */
  datatype PostOutcome = Answered(data: Option<Frame>) | PostFailed(failure: HttpFailure)

  /** One single-shot exchange: what was posted and what the caller gets. */
  datatype Exchange = Exchange(request: ChatRequest, result: ChatResult)

  /** `generateResponse(message, model, conversationHistory)`: succeeds
      exactly when the reply has a `message`, and then reports its content
      and the resolved model; otherwise the fixed invalid-response text or a
      classified transport failure. It never throws. */
  function GenerateResponse(config: Config, message: string, model: Option<string>,
                            history: seq<Message>, outcome: PostOutcome): (x: Exchange)
    ensures x.request.model == ResolveModel(config, model)
    ensures x.request.messages == BuildMessages(history, message) && !x.request.stream
    ensures x.result.Reply? <==> outcome.Answered? && outcome.data.Some? && outcome.data.value.message.Some?
    ensures x.result.Reply? ==>
      && x.result.response == outcome.data.value.message.value.content
      && x.result.model == x.request.model
      && x.result.done == outcome.data.value.done
    ensures outcome.Answered? && !x.result.Reply? ==> x.result == ChatFailed("Invalid response from Ollama")
    ensures outcome.PostFailed? ==> x.result == ChatFailed(GenerateErrorText(config.baseUrl, outcome.failure))
  {
    var m := ResolveModel(config, model);
    var request := ChatRequest(m, BuildMessages(history, message), false);
    match outcome
    case Answered(data) =>
      if data.Some? && data.value.message.Some? then
        Exchange(request, Reply(data.value.message.value.content, m, data.value.done))
      else
        Exchange(request, ChatFailed("Invalid response from Ollama"))
    case PostFailed(e) => Exchange(request, ChatFailed(GenerateErrorText(config.baseUrl, e)))
  }

  /** With no `DEFAULT_MODEL` set and no model argument, the reply names
      `llama2`. */
  lemma DefaultModelIsLlama2(baseUrlVar: Option<string>, message: string, history: seq<Message>, data: Frame)
    requires data.message.Some?
    ensures GenerateResponse(ConfigFromEnv(baseUrlVar, None), message, None, history, Answered(Some(data))).result
         == Reply(data.message.value.content, "llama2", data.done)
  {
  }

  /** An explicit model argument is sent upstream and reported back,
      whatever the configured default. */
  lemma ExplicitModelIsUsed(config: Config, message: string, model: string,
                            history: seq<Message>, outcome: PostOutcome)
    ensures GenerateResponse(config, message, Some(model), history, outcome).request.model == model
    ensures GenerateResponse(config, message, Some(model), history, outcome).result.Reply? ==>
      GenerateResponse(config, message, Some(model), history, outcome).result.model == model
  {
  }
}

=== FILE: stream_decoder.dfy ===
/** The streaming half of the model-server client: `generateStreamResponse`
    in server/src/services/ollamaService.js. The upstream response body is an
    abstract trace of stream events; `JSON.parse` is an abstract partial
    function from a line to a frame. The session keeps one text buffer,
    splits it into newline-terminated lines, accumulates the non-empty
    content fragments and reports each with the running total. */
module StreamDecoder {
  import opened Wrappers
  import opened JsText
  import opened Messages
  import opened Ollama

  /** `JSON.parse` followed by property access: None when the text is not
      JSON, or parses to a value whose properties cannot be read (`null`),
      both of which the source's `catch` swallows. */
  type Parser = string -> Option<Frame>

  /** What the upstream response stream emits. */
  datatype Event = Data(chunk: string) | End | Error(message: string) | Close

  /** One `onData(fragment, cumulative, done)` callback invocation. */
  datatype Call = Call(fragment: string, cumulative: string, done: bool)

  /** The state of the returned promise. A promise settles once: later
      `resolve`/`reject` calls are ignored. */
  datatype Settlement = Pending | Resolved(response: string) | Rejected(error: string)

  /** The closure state of one streaming call: `buffer`, `fullResponse`,
      `hasError`, the promise and the callbacks made so far. */
  datatype Session = Session(buffer: string, full: string, hasError: bool,
                             settlement: Settlement, calls: seq<Call>)

  const Initial := Session([], [], false, Pending, [])

  /** `resolve(v)` / `reject(v)`: only the first settlement takes effect. */
  function Settle(p: Settlement, v: Settlement): (r: Settlement)
    ensures p.Pending? ==> r == v
    ensures !p.Pending? ==> r == p
  {
    if p.Pending? then v else p
  }

  // ---------------------------------------------------------------------
  // Line framing

  /** The lines a buffer holds: every piece before the last newline. */
  function CompleteLines(text: string): seq<string> {
    var parts := Split(text, '\n');
    parts[..|parts| - 1]
  }

  /** The text after the last newline: what `lines.pop()` keeps. */
  function Unterminated(text: string): string {
    var parts := Split(text, '\n');
    parts[|parts| - 1]
  }

  datatype Pieces = Pieces(lines: seq<string>, rest: string)

  /** `buffer += chunk; lines = buffer.split('\n'); buffer = lines.pop() || ''`.
      The pieces hold no newline and, joined by newlines, give back the
      text, which by `SplitJoin` makes them its split. */
  function SplitChunk(buffer: string, chunk: string): (r: Pieces)
    ensures '\n' !in r.rest && forall i :: 0 <= i < |r.lines| ==> '\n' !in r.lines[i]
    ensures Join(r.lines + [r.rest], "\n") == buffer + chunk
  {
    var parts := Split(buffer + chunk, '\n');
    JoinSplit(buffer + chunk, '\n');
    assert parts == parts[..|parts| - 1] + [parts[|parts| - 1]];
    Pieces(CompleteLines(buffer + chunk), Unterminated(buffer + chunk))
  }

  /** The lines produced and the buffer retained after a sequence of chunks. */
  function Feed(buffer: string, chunks: seq<string>): (r: Pieces)
    ensures forall i :: 0 <= i < |r.lines| ==> '\n' !in r.lines[i]
    ensures |chunks| > 0 ==> '\n' !in r.rest
    ensures |chunks| == 0 ==> r == Pieces([], buffer)
    decreases |chunks|
  {
    if |chunks| == 0 then Pieces([], buffer)
    else
      var p := SplitChunk(buffer, chunks[0]);
      var q := Feed(p.rest, chunks[1..]);
      Pieces(p.lines + q.lines, q.rest)
  }

  /** All text received, in order. */
  function Concat(chunks: seq<string>): string {
    if |chunks| == 0 then [] else chunks[0] + Concat(chunks[1..])
  }

  /** Gluing two framings: if `lines` and `rest` spell `x`, and `more` and
      `last` spell `rest` followed by `tail`, then together they spell `x`
      followed by `tail`. */
  lemma JoinGlue(lines: seq<string>, rest: string, more: seq<string>, last: string, x: string, tail: string)
    requires Join(lines + [rest], "\n") == x
    requires Join(more + [last], "\n") == rest + tail
    ensures Join((lines + more) + [last], "\n") == x + tail
  {
    assert (lines + more) + [last] == lines + (more + [last]);
    if |lines| > 0 {
      JoinAppend(lines, more + [last], "\n");
      JoinAppend(lines, [rest], "\n");
      var head := Join(lines, "\n");
      assert head + "\n" + (rest + tail) == (head + "\n" + rest) + tail;
    } else {
      assert lines + [rest] == [rest];
      assert lines + (more + [last]) == more + [last];
    }
  }

  /** After any chunks, the lines, each followed by a newline, then the
      buffer, spell out exactly the text received. */
  lemma {:induction false} FeedInvariant(buffer: string, chunks: seq<string>)
    decreases |chunks|
    ensures Join(Feed(buffer, chunks).lines + [Feed(buffer, chunks).rest], "\n") == buffer + Concat(chunks)
  {
    if |chunks| == 0 {
      assert Feed(buffer, chunks).lines + [Feed(buffer, chunks).rest] == [buffer];
    } else {
      var p := SplitChunk(buffer, chunks[0]);
      var q := Feed(p.rest, chunks[1..]);
      FeedInvariant(p.rest, chunks[1..]);
      assert Feed(buffer, chunks) == Pieces(p.lines + q.lines, q.rest);
      JoinGlue(p.lines, p.rest, q.lines, q.rest, buffer + chunks[0], Concat(chunks[1..]));
      assert buffer + Concat(chunks) == (buffer + chunks[0]) + Concat(chunks[1..]);
    }
  }

  /** The framing depends only on the concatenated input: the lines and the
      buffer are those of one split of the whole text. */
  lemma FeedIsSplit(chunks: seq<string>)
    ensures Feed([], chunks) == Pieces(CompleteLines(Concat(chunks)), Unterminated(Concat(chunks)))
  {
    var q := Feed([], chunks);
    var text := Concat(chunks);
    var parts := q.lines + [q.rest];
    FeedInvariant([], chunks);
    assert [] + text == text;
    assert '\n' !in q.rest;
    forall i | 0 <= i < |parts| ensures '\n' !in parts[i] {
      if i < |q.lines| {
        assert parts[i] == q.lines[i];
      }
    }
    SplitJoin(parts, '\n');
    assert Split(text, '\n') == parts;
    assert parts[..|parts| - 1] == q.lines;
  }

  /** Chunk-boundary invariance of the framing. */
  lemma FeedChunkInvariance(a: seq<string>, b: seq<string>)
    requires Concat(a) == Concat(b)
    ensures Feed([], a) == Feed([], b)
  {
    FeedIsSplit(a);
    FeedIsSplit(b);
  }

  // ---------------------------------------------------------------------
  // Line handling

  /** Lines skipped before parsing: blank after trim, or a raw `:` prefix. */
  predicate Skipped(line: string) {
    IsBlank(line) || StartsWith(line, ":")
  }

  /** The fragment a line contributes, if any. */
  function LineContent(parse: Parser, line: string): Option<string> {
    if Skipped(line) then None
    else match parse(line)
      case None => None
      case Some(f) => Fragment(f)
  }

  /** Whether a line is an error frame that sets `hasError`. */
  predicate RaisesError(parse: Parser, line: string) {
    !Skipped(line) && parse(line).Some? && ErrorOf(parse(line).value).Some?
  }

  /** `fullResponse += fragment; onData(fragment, fullResponse, done)` */
  function Report(s: Session, fragment: string, done: bool): Session {
    s.(full := s.full + fragment, calls := s.calls + [Call(fragment, s.full + fragment, done)])
  }

  /** The body of the `for (const line of lines)` loop. There is no `break`
      after an error frame, and the `hasError` flag is not consulted here. */
  function ProcessLine(parse: Parser, s: Session, line: string): (r: Session)
    ensures r.buffer == s.buffer
    ensures Skipped(line) || parse(line).None? ==> r == s
    ensures r.full == s.full + LineContent(parse, line).GetOr([])
    ensures |r.calls| == |s.calls| + (if LineContent(parse, line).Some? then 1 else 0)
    ensures LineContent(parse, line).None? ==> r.calls == s.calls
    ensures LineContent(parse, line).Some? ==>
      r.calls == s.calls + [Call(LineContent(parse, line).value, r.full, DoneFlag(parse(line).value))]
    ensures r.hasError <==> s.hasError || RaisesError(parse, line)
    ensures !RaisesError(parse, line) ==> r.settlement == s.settlement
    ensures RaisesError(parse, line) ==>
      r.settlement == Settle(s.settlement, Rejected(ErrorOf(parse(line).value).value))
  {
    if Skipped(line) then s
    else match parse(line)
      case None => s
      case Some(f) =>
        var s1 := match Fragment(f)
          case Some(t) => Report(s, t, DoneFlag(f))
          case None => s;
        match ErrorOf(f)
        case Some(e) => s1.(hasError := true, settlement := Settle(s1.settlement, Rejected(e)))
        case None => s1
  }

  function ProcessLines(parse: Parser, s: Session, lines: seq<string>): Session
    decreases |lines|
  {
    if |lines| == 0 then s else ProcessLines(parse, ProcessLine(parse, s, lines[0]), lines[1..])
  }

  /** The concatenation, in order, of every fragment the lines contribute. */
  function Contents(parse: Parser, lines: seq<string>): string {
    if |lines| == 0 then [] else LineContent(parse, lines[0]).GetOr([]) + Contents(parse, lines[1..])
  }

  /** How many lines contribute a fragment. */
  function ContentCount(parse: Parser, lines: seq<string>): nat {
    if |lines| == 0 then 0
    else (if LineContent(parse, lines[0]).Some? then 1 else 0) + ContentCount(parse, lines[1..])
  }

  /** No line is an error frame. */
  ghost predicate ErrorFree(parse: Parser, lines: seq<string>) {
    forall i :: 0 <= i < |lines| ==> !RaisesError(parse, lines[i])
  }

  /** Processing a run of lines appends their fragments to the accumulated
      text, one callback per contributing line, and never touches the
      buffer. */
  lemma {:induction false} ProcessLinesFacts(parse: Parser, s: Session, lines: seq<string>)
    decreases |lines|
    ensures s.calls <= ProcessLines(parse, s, lines).calls
    ensures ProcessLines(parse, s, lines).buffer == s.buffer
    ensures ProcessLines(parse, s, lines).full == s.full + Contents(parse, lines)
    ensures |ProcessLines(parse, s, lines).calls| == |s.calls| + ContentCount(parse, lines)
  {
    if |lines| > 0 {
      var s1 := ProcessLine(parse, s, lines[0]);
      var r := ProcessLines(parse, s1, lines[1..]);
      assert ProcessLines(parse, s, lines) == r;
      ProcessLinesFacts(parse, s1, lines[1..]);
      var c := LineContent(parse, lines[0]).GetOr([]);
      var k: nat := if LineContent(parse, lines[0]).Some? then 1 else 0;
      assert Contents(parse, lines) == c + Contents(parse, lines[1..]);
      assert ContentCount(parse, lines) == k + ContentCount(parse, lines[1..]);
      assert s1.full == s.full + c && |s1.calls| == |s.calls| + k;
      assert r.full == (s.full + c) + Contents(parse, lines[1..]);
      assert s.calls <= s1.calls;
    }
  }

  /** Processing lines never clears `hasError`, and leaves flag and promise
      alone when no line is an error frame. */
  lemma {:induction false} ProcessLinesFlags(parse: Parser, s: Session, lines: seq<string>)
    decreases |lines|
    ensures s.hasError ==> ProcessLines(parse, s, lines).hasError
    ensures !s.settlement.Pending? ==> ProcessLines(parse, s, lines).settlement == s.settlement
    ensures (s.hasError ==> !s.settlement.Pending?) ==>
      (ProcessLines(parse, s, lines).hasError ==> !ProcessLines(parse, s, lines).settlement.Pending?)
    ensures ErrorFree(parse, lines) ==>
      ProcessLines(parse, s, lines).hasError == s.hasError
      && ProcessLines(parse, s, lines).settlement == s.settlement
  {
    if |lines| > 0 {
      var s1 := ProcessLine(parse, s, lines[0]);
      assert ProcessLines(parse, s, lines) == ProcessLines(parse, s1, lines[1..]);
      ProcessLinesFlags(parse, s1, lines[1..]);
      if ErrorFree(parse, lines) {
        assert lines == [lines[0]] + lines[1..];
        ErrorFreeSplit(parse, [lines[0]], lines[1..]);
        assert !RaisesError(parse, [lines[0]][0]);
      }
    }
  }

  lemma {:induction false} ProcessLinesAppend(parse: Parser, s: Session, a: seq<string>, b: seq<string>)
    decreases |a|
    ensures ProcessLines(parse, s, a + b) == ProcessLines(parse, ProcessLines(parse, s, a), b)
  {
    if |a| == 0 {
      assert a + b == b;
    } else {
      assert (a + b)[0] == a[0];
      assert (a + b)[1..] == a[1..] + b;
      ProcessLinesAppend(parse, ProcessLine(parse, s, a[0]), a[1..], b);
    }
  }

  /** Line handling does not read the buffer. */
  lemma {:induction false} ProcessLinesBuffer(parse: Parser, s: Session, lines: seq<string>, x: string)
    decreases |lines|
    ensures ProcessLines(parse, s, lines).(buffer := x) == ProcessLines(parse, s.(buffer := x), lines)
  {
    if |lines| > 0 {
      var l := lines[0];
      assert ProcessLine(parse, s, l).(buffer := x) == ProcessLine(parse, s.(buffer := x), l);
      ProcessLinesBuffer(parse, ProcessLine(parse, s, l), lines[1..], x);
    }
  }

  lemma ErrorFreeSplit(parse: Parser, a: seq<string>, b: seq<string>)
    requires ErrorFree(parse, a + b)
    ensures ErrorFree(parse, a) && ErrorFree(parse, b)
  {
    forall i | 0 <= i < |a| ensures !RaisesError(parse, a[i]) {
      assert a[i] == (a + b)[i];
    }
    forall i | 0 <= i < |b| ensures !RaisesError(parse, b[i]) {
      assert b[i] == (a + b)[|a| + i];
    }
  }

  // ---------------------------------------------------------------------
  // Stream event handlers

  /** `on('data')`: ignored once an error was seen; otherwise the chunk is
      framed, the last piece kept as the buffer, and every complete line
      handled in order. */
  function OnData(parse: Parser, s: Session, chunk: string): (r: Session)
    ensures s.hasError ==> r == s
    ensures !s.hasError ==>
      && r.buffer == Unterminated(s.buffer + chunk)
      && r.full == s.full + Contents(parse, CompleteLines(s.buffer + chunk))
      && |r.calls| == |s.calls| + ContentCount(parse, CompleteLines(s.buffer + chunk))
    ensures s.calls <= r.calls
    ensures !s.settlement.Pending? ==> r.settlement == s.settlement
    ensures (s.hasError ==> !s.settlement.Pending?) ==> (r.hasError ==> !r.settlement.Pending?)
    ensures ErrorFree(parse, CompleteLines(s.buffer + chunk)) ==>
      r.hasError == s.hasError && r.settlement == s.settlement
  {
    if s.hasError then s
    else
      var p := SplitChunk(s.buffer, chunk);
      ProcessLinesFacts(parse, s.(buffer := p.rest), p.lines);
      ProcessLinesFlags(parse, s.(buffer := p.rest), p.lines);
      ProcessLines(parse, s.(buffer := p.rest), p.lines)
  }

  /** The fragment a non-blank residual buffer contributes when parsed on
      `end` or `close`. Neither the `:` prefix nor `error` is looked at. */
  function ResidualContent(parse: Parser, buffer: string): Option<string> {
    if IsBlank(buffer) then None
    else match parse(buffer)
      case None => None
      case Some(f) => Fragment(f)
  }

  /** The callbacks the residual buffer makes: one, with `done` true and the
      new total, when it holds a fragment; none otherwise. */
  function ResidualCalls(parse: Parser, s: Session): seq<Call> {
    match ResidualContent(parse, s.buffer)
    case Some(t) => [Call(t, s.full + t, true)]
    case None => []
  }

  /** The residual parse shared by `end` and `close`: the residual
      fragment, if any, is accumulated and reported with `done = true`. The
      buffer is not cleared and the promise is not touched. */
  function ParseResidual(parse: Parser, s: Session): (r: Session)
    ensures r.buffer == s.buffer && r.hasError == s.hasError && r.settlement == s.settlement
    ensures ResidualContent(parse, s.buffer).None? ==> r == s
    ensures ResidualContent(parse, s.buffer).Some? ==>
      var t := ResidualContent(parse, s.buffer).value;
      r.full == s.full + t && r.calls == s.calls + [Call(t, s.full + t, true)]
  {
    match ResidualContent(parse, s.buffer)
    case Some(t) => Report(s, t, true)
    case None => s
  }

  /** `on('end')`: a final residual parse, then resolve with the text so
      far, unless an error was seen. */
  function OnEnd(parse: Parser, s: Session): (r: Session)
    ensures s.hasError ==> r == s
    ensures !s.hasError ==>
      && !r.hasError && r.buffer == s.buffer
      && r.full == s.full + ResidualContent(parse, s.buffer).GetOr([])
      && r.settlement == Settle(s.settlement, Resolved(r.full))
    ensures !s.hasError ==> r.calls == s.calls + ResidualCalls(parse, s)
    ensures s.calls <= r.calls
  {
    if s.hasError then s
    else
      var s1 := ParseResidual(parse, s);
      s1.(settlement := Settle(s1.settlement, Resolved(s1.full)))
  }

  /** `on('error')`: the first failure rejects with the transport's message
      and stops the session. */
  function OnError(s: Session, message: string): (r: Session)
    ensures s.hasError ==> r == s
    ensures !s.hasError ==>
      && r.hasError && r.settlement == Settle(s.settlement, Rejected(message))
      && r.full == s.full && r.calls == s.calls && r.buffer == s.buffer
  {
    if s.hasError then s
    else s.(hasError := true, settlement := Settle(s.settlement, Rejected(message)))
  }

  /** `on('close')`: the residual is parsed again unless an error was seen;
      the promise is never settled here. */
  function OnClose(parse: Parser, s: Session): (r: Session)
    ensures s.hasError ==> r == s
    ensures r.settlement == s.settlement && r.hasError == s.hasError && r.buffer == s.buffer
    ensures !s.hasError ==> r.full == s.full + ResidualContent(parse, s.buffer).GetOr([])
    ensures !s.hasError ==> r.calls == s.calls + ResidualCalls(parse, s)
    ensures s.calls <= r.calls
  {
    if s.hasError then s else ParseResidual(parse, s)
  }

  /** One event. Whatever it is, the callback log only grows, a settled
      promise stays settled, and a set error flag has a settled promise. */
  function Step(parse: Parser, s: Session, e: Event): (r: Session)
    ensures s.hasError ==> r == s
    ensures s.calls <= r.calls
    ensures !s.settlement.Pending? ==> r.settlement == s.settlement
    ensures (s.hasError ==> !s.settlement.Pending?) ==> (r.hasError ==> !r.settlement.Pending?)
  {
    match e
    case Data(c) => OnData(parse, s, c)
    case End => OnEnd(parse, s)
    case Error(m) => OnError(s, m)
    case Close => OnClose(parse, s)
  }

  /** A trace of events. Once `hasError` is set every later event does
      nothing; the promise settles at most once; callbacks are only ever
      appended; and an error flag always comes with a settled promise. */
  function Run(parse: Parser, s: Session, events: seq<Event>): (r: Session)
    ensures s.hasError ==> r == s
    ensures s.calls <= r.calls
    ensures !s.settlement.Pending? ==> r.settlement == s.settlement
    ensures (s.hasError ==> !s.settlement.Pending?) ==> (r.hasError ==> !r.settlement.Pending?)
    decreases |events|
  {
    if |events| == 0 then s
    else
      var next := Step(parse, s, events[0]);
      var r := Run(parse, next, events[1..]);
      assert s.calls <= next.calls <= r.calls;
      r
  }

  function DataEvents(chunks: seq<string>): (r: seq<Event>)
    ensures |r| == |chunks|
    ensures forall i :: 0 <= i < |r| ==> r[i] == Data(chunks[i])
  {
    seq(|chunks|, i requires 0 <= i < |chunks| => Data(chunks[i]))
  }

  lemma {:induction false} RunAppend(parse: Parser, s: Session, a: seq<Event>, b: seq<Event>)
    decreases |a|
    ensures Run(parse, s, a + b) == Run(parse, Run(parse, s, a), b)
  {
    if |a| == 0 {
      assert a + b == b;
    } else {
      assert (a + b)[0] == a[0];
      assert (a + b)[1..] == a[1..] + b;
      RunAppend(parse, Step(parse, s, a[0]), a[1..], b);
    }
  }

  // ---------------------------------------------------------------------
  // Error handling

  /** A chunk whose lines contain an error frame rejects the pending promise
      with the frame's `error`, and the stream is then inert. */
  lemma ErrorFrameRejects(parse: Parser, s: Session, chunk: string, later: seq<Event>)
    requires !s.hasError && s.settlement.Pending?
    requires forall i :: 0 <= i < |SplitChunk(s.buffer, chunk).lines| ==>
      (RaisesError(parse, SplitChunk(s.buffer, chunk).lines[i]) <==> i == 0)
    requires |SplitChunk(s.buffer, chunk).lines| > 0
    ensures var first := SplitChunk(s.buffer, chunk).lines[0];
      Run(parse, s, [Data(chunk)] + later).settlement == Rejected(ErrorOf(parse(first).value).value)
    ensures Run(parse, s, [Data(chunk)] + later) == OnData(parse, s, chunk)
  {
    var p := SplitChunk(s.buffer, chunk);
    var s0 := s.(buffer := p.rest);
    var s1 := ProcessLine(parse, s0, p.lines[0]);
    assert p.lines == [p.lines[0]] + p.lines[1..];
    ProcessLinesAppend(parse, s0, [p.lines[0]], p.lines[1..]);
    assert ProcessLines(parse, s0, [p.lines[0]]) == s1;
    assert ErrorFree(parse, p.lines[1..]) by {
      forall i | 0 <= i < |p.lines[1..]| ensures !RaisesError(parse, p.lines[1..][i]) {
        assert p.lines[1..][i] == p.lines[i + 1];
      }
    }
    ProcessLinesFacts(parse, s1, p.lines[1..]);
    ProcessLinesFlags(parse, s1, p.lines[1..]);
    var s2 := OnData(parse, s, chunk);
    assert s2.hasError;
    assert ([Data(chunk)] + later)[1..] == later;
  }

  /** The framing of one chunk holding two newline-terminated lines. */
  lemma TwoLineChunk(x: string, y: string)
    requires '\n' !in x && '\n' !in y
    ensures SplitChunk([], x + "\n" + y + "\n") == Pieces([x, y], [])
  {
    var text := x + "\n" + y + "\n";
    assert Join([[]], "\n") == [];
    assert [y, []][1..] == [[]];
    assert Join([y, []], "\n") == y + "\n" + [];
    assert [x, y, []][1..] == [y, []];
    assert Join([x, y, []], "\n") == x + "\n" + (y + "\n" + []);
    assert Join([x, y, []], "\n") == text;
    SplitJoin([x, y, []], '\n');
    assert [] + text == text;
    var parts := Split(text, '\n');
    assert parts == [x, y, []];
    assert parts[..|parts| - 1] == [x, y];
  }

  /** The framing of one chunk holding one newline-terminated line. */
  lemma OneLineChunk(x: string)
    requires '\n' !in x
    ensures SplitChunk([], x + "\n") == Pieces([x], [])
  {
    assert Join([[]], "\n") == [];
    assert [x, []][1..] == [[]];
    assert Join([x, []], "\n") == x + "\n" + [];
    assert x + "\n" + [] == x + "\n";
    SplitJoin([x, []], '\n');
    assert [] + (x + "\n") == x + "\n";
    var parts := Split(x + "\n", '\n');
    assert parts == [x, []];
    assert parts[..|parts| - 1] == [x];
  }

  /** Quirk: the loop does not stop at an error frame, so a content line
      later in the same chunk is still appended and reported. */
  lemma ErrorFrameDoesNotStopChunk(parse: Parser, errLine: string, textLine: string, err: string, t: string)
    requires '\n' !in errLine && '\n' !in textLine
    requires !Skipped(errLine) && !Skipped(textLine)
    requires parse(errLine) == Some(Frame(None, None, Some(err))) && err != []
    requires parse(textLine) == Some(Frame(Some(MessageField(Some(t))), None, None)) && t != []
    ensures var s := OnData(parse, Initial, errLine + "\n" + textLine + "\n");
      && s.settlement == Rejected(err)
      && s.full == t
      && s.calls == [Call(t, t, false)]
  {
    TwoLineChunk(errLine, textLine);
    var s0 := Initial.(buffer := []);
    assert s0 == Initial;
    var s1 := ProcessLine(parse, s0, errLine);
    assert s1 == Initial.(hasError := true, settlement := Rejected(err));
    var s2 := ProcessLine(parse, s1, textLine);
    assert s2 == s1.(full := t, calls := [Call(t, [] + t, false)]);
    assert [errLine, textLine][1..] == [textLine];
    assert ProcessLines(parse, s0, [errLine, textLine]) == ProcessLines(parse, s1, [textLine]);
    assert ProcessLines(parse, s1, [textLine]) == ProcessLines(parse, s2, []);
  }

  /** The second half of that scenario: the error line arrives as a chunk
      of its own, so the session is stopped before the content line. */
  lemma ErrorChunkFirstDropsContent(parse: Parser, errLine: string, textLine: string, err: string)
    requires '\n' !in errLine && !Skipped(errLine)
    requires parse(errLine) == Some(Frame(None, None, Some(err))) && err != []
    ensures Run(parse, Initial, DataEvents([errLine + "\n", textLine + "\n"])).full == []
  {
    var c1 := errLine + "\n";
    var c2 := textLine + "\n";
    OneLineChunk(errLine);
    var s1 := OnData(parse, Initial, c1);
    assert Initial.(buffer := []) == Initial;
    assert s1 == ProcessLines(parse, Initial, [errLine]);
    assert ProcessLines(parse, Initial, [errLine]) == ProcessLines(parse, ProcessLine(parse, Initial, errLine), []);
    assert s1.hasError && s1.full == [];
    assert DataEvents([c1, c2]) == [Data(c1), Data(c2)];
    assert [Data(c1), Data(c2)][1..] == [Data(c2)];
    assert Run(parse, Initial, [Data(c1), Data(c2)]) == Run(parse, s1, [Data(c2)]);
  }

  /** Quirk: because of that, chunk boundaries matter once an error frame is
      seen. The same text split after the error line skips the content. */
  lemma ChunkingMattersAfterError(parse: Parser, errLine: string, textLine: string, err: string, t: string)
    requires '\n' !in errLine && '\n' !in textLine
    requires !Skipped(errLine) && !Skipped(textLine)
    requires parse(errLine) == Some(Frame(None, None, Some(err))) && err != []
    requires parse(textLine) == Some(Frame(Some(MessageField(Some(t))), None, None)) && t != []
    ensures Concat([errLine + "\n" + textLine + "\n"]) == Concat([errLine + "\n", textLine + "\n"])
    ensures Run(parse, Initial, DataEvents([errLine + "\n" + textLine + "\n"])).full == t
    ensures Run(parse, Initial, DataEvents([errLine + "\n", textLine + "\n"])).full == []
  {
    var c1 := errLine + "\n";
    var c2 := textLine + "\n";
    var whole := errLine + "\n" + textLine + "\n";
    assert Concat([whole]) == whole + Concat([]);
    assert [c1, c2][1..] == [c2];
    assert [c2][1..] == [];
    assert Concat([c2]) == c2 + Concat([]);
    assert Concat([c1, c2]) == c1 + Concat([c2]);
    assert whole == c1 + c2;

    ErrorFrameDoesNotStopChunk(parse, errLine, textLine, err, t);
    assert DataEvents([whole]) == [Data(whole)];
    assert Run(parse, Initial, [Data(whole)]) == Run(parse, OnData(parse, Initial, whole), []);
    ErrorChunkFirstDropsContent(parse, errLine, textLine, err);
  }

  // ---------------------------------------------------------------------
  // The callback log

  /** The concatenation of every reported fragment, in order. */
  function Fragments(calls: seq<Call>): string {
    if |calls| == 0 then [] else Fragments(calls[..|calls| - 1]) + calls[|calls| - 1].fragment
  }

  /** Every reported fragment is non-empty and every callback's second
      argument is the concatenation of all fragments reported up to it. */
  ghost predicate Cumulative(calls: seq<Call>) {
    forall i :: 0 <= i < |calls| ==>
      calls[i].fragment != [] && calls[i].cumulative == Fragments(calls[..i + 1])
  }

  /** The session's accumulated text is the concatenation of the reported
      fragments, and a resolved response is a prefix of it. */
  ghost predicate Coherent(s: Session) {
    && s.full == Fragments(s.calls)
    && Cumulative(s.calls)
    && (s.settlement.Resolved? ==> s.settlement.response <= s.full)
  }

  lemma ReportCoherent(s: Session, t: string, done: bool)
    requires Coherent(s) && t != []
    ensures Coherent(Report(s, t, done))
  {
    var cs := Report(s, t, done).calls;
    assert cs[..|cs| - 1] == s.calls;
    forall i | 0 <= i < |cs|
      ensures cs[i].fragment != [] && cs[i].cumulative == Fragments(cs[..i + 1])
    {
      if i < |s.calls| {
        assert cs[..i + 1] == s.calls[..i + 1];
      } else {
        assert cs[..i + 1] == cs;
      }
    }
    if s.settlement.Resolved? {
      assert (s.full + t)[..|s.full|] == s.full;
    }
  }

  /** Raising the error flag and rejecting keeps the log coherent: the
      promise is rejected or keeps its earlier settlement. */
  lemma RaiseCoherent(s: Session, e: string)
    requires Coherent(s)
    ensures Coherent(s.(hasError := true, settlement := Settle(s.settlement, Rejected(e))))
  {
  }

  lemma ProcessLineCoherent(parse: Parser, s: Session, line: string)
    requires Coherent(s)
    ensures Coherent(ProcessLine(parse, s, line))
  {
    var r := ProcessLine(parse, s, line);
    var c := LineContent(parse, line);
    if c.Some? {
      var done := DoneFlag(parse(line).value);
      ReportCoherent(s, c.value, done);
      assert r.full == Report(s, c.value, done).full && r.calls == Report(s, c.value, done).calls;
    }
    assert r.settlement.Resolved? ==> r.settlement == s.settlement;
  }

  lemma {:induction false} ProcessLinesCoherent(parse: Parser, s: Session, lines: seq<string>)
    decreases |lines|
    requires Coherent(s)
    ensures Coherent(ProcessLines(parse, s, lines))
  {
    if |lines| > 0 {
      ProcessLineCoherent(parse, s, lines[0]);
      ProcessLinesCoherent(parse, ProcessLine(parse, s, lines[0]), lines[1..]);
    }
  }

  lemma OnDataCoherent(parse: Parser, s: Session, c: string)
    requires Coherent(s)
    ensures Coherent(OnData(parse, s, c))
  {
    if !s.hasError {
      var p := SplitChunk(s.buffer, c);
      ProcessLinesCoherent(parse, s.(buffer := p.rest), p.lines);
    }
  }

  lemma ParseResidualCoherent(parse: Parser, s: Session)
    requires Coherent(s)
    ensures Coherent(ParseResidual(parse, s))
  {
    var t := ResidualContent(parse, s.buffer);
    if t.Some? {
      ReportCoherent(s, t.value, true);
    }
  }

  lemma OnEndCoherent(parse: Parser, s: Session)
    requires Coherent(s)
    ensures Coherent(OnEnd(parse, s))
  {
    if !s.hasError {
      var p := ParseResidual(parse, s);
      ParseResidualCoherent(parse, s);
      var r := p.(settlement := Settle(p.settlement, Resolved(p.full)));
      assert Coherent(r) by {
        assert r.full == p.full && r.calls == p.calls;
        assert r.settlement.Resolved? ==> r.settlement.response <= r.full;
      }
      assert OnEnd(parse, s) == r;
    }
  }

  lemma StepCoherent(parse: Parser, s: Session, e: Event)
    requires Coherent(s)
    ensures Coherent(Step(parse, s, e))
  {
    match e
    case Data(c) => OnDataCoherent(parse, s, c);
    case End => OnEndCoherent(parse, s);
    case Error(_) =>
    case Close => ParseResidualCoherent(parse, s);
  }

  /** Whatever the trace, the callback log stays cumulative and the resolved
      text is a prefix of what was reported. */
  lemma {:induction false} RunCoherent(parse: Parser, s: Session, events: seq<Event>)
    decreases |events|
    requires Coherent(s)
    ensures Coherent(Run(parse, s, events))
  {
    if |events| > 0 {
      StepCoherent(parse, s, events[0]);
      RunCoherent(parse, Step(parse, s, events[0]), events[1..]);
    }
  }

  // ---------------------------------------------------------------------
  // Chunk-boundary invariance of the whole session

  /** While no line is an error frame, a run of data chunks is the handling
      of the framed lines, with the framed residual as buffer. */
  lemma {:induction false} DataRunIsLines(parse: Parser, s: Session, chunks: seq<string>)
    decreases |chunks|
    requires !s.hasError
    requires ErrorFree(parse, Feed(s.buffer, chunks).lines)
    ensures Run(parse, s, DataEvents(chunks))
         == ProcessLines(parse, s.(buffer := Feed(s.buffer, chunks).rest), Feed(s.buffer, chunks).lines)
  {
    if |chunks| == 0 {
      assert s.(buffer := s.buffer) == s;
    } else {
      var p := SplitChunk(s.buffer, chunks[0]);
      var q := Feed(p.rest, chunks[1..]);
      var s1 := OnData(parse, s, chunks[0]);
      assert Feed(s.buffer, chunks) == Pieces(p.lines + q.lines, q.rest);
      ErrorFreeSplit(parse, p.lines, q.lines);
      ProcessLinesFacts(parse, s.(buffer := p.rest), p.lines);
      ProcessLinesFlags(parse, s.(buffer := p.rest), p.lines);
      assert s1.buffer == p.rest && !s1.hasError;
      assert DataEvents(chunks)[0] == Data(chunks[0]);
      assert DataEvents(chunks)[1..] == DataEvents(chunks[1..]);
      DataRunIsLines(parse, s1, chunks[1..]);
      ProcessLinesBuffer(parse, s.(buffer := p.rest), p.lines, q.rest);
      assert s.(buffer := p.rest).(buffer := q.rest) == s.(buffer := q.rest);
      ProcessLinesAppend(parse, s.(buffer := q.rest), p.lines, q.lines);
    }
  }

  /** Chunk-boundary invariance: two ways of chunking the same text that
      carries no error frame leave the session in the same state. */
  lemma SessionChunkInvariance(parse: Parser, a: seq<string>, b: seq<string>)
    requires Concat(a) == Concat(b)
    requires ErrorFree(parse, CompleteLines(Concat(a)))
    ensures Run(parse, Initial, DataEvents(a)) == Run(parse, Initial, DataEvents(b))
  {
    FeedIsSplit(a);
    FeedIsSplit(b);
    DataRunIsLines(parse, Initial, a);
    DataRunIsLines(parse, Initial, b);
  }

  /** A stream of chunks without error frames, then `end`, resolves with the
      fragments of every complete line in order, followed by the fragment of
      the residual text: a function of the concatenated input alone. */
  lemma StreamResolvesWithAllContent(parse: Parser, chunks: seq<string>)
    requires ErrorFree(parse, CompleteLines(Concat(chunks)))
    ensures var text := Concat(chunks);
      Run(parse, Initial, DataEvents(chunks) + [End]).settlement
        == Resolved(Contents(parse, CompleteLines(text)) + ResidualContent(parse, Unterminated(text)).GetOr([]))
  {
    var text := Concat(chunks);
    FeedIsSplit(chunks);
    DataRunIsLines(parse, Initial, chunks);
    var s0 := Initial.(buffer := Unterminated(text));
    ProcessLinesFacts(parse, s0, CompleteLines(text));
    ProcessLinesFlags(parse, s0, CompleteLines(text));
    RunAppend(parse, Initial, DataEvents(chunks), [End]);
    assert [] + Contents(parse, CompleteLines(text)) == Contents(parse, CompleteLines(text));
  }

  /** Quirk: `end` leaves the buffer in place and `close` parses it again, so
      a residual fragment is reported twice; the resolved response holds it
      once. */
  lemma EndThenCloseReportsTwice(parse: Parser, s: Session)
    requires !s.hasError && s.settlement.Pending?
    requires ResidualContent(parse, s.buffer).Some?
    ensures var t := ResidualContent(parse, s.buffer).value;
      var r := Run(parse, s, [End, Close]);
      && r.settlement == Resolved(s.full + t)
      && r.full == s.full + t + t
      && r.calls == s.calls + [Call(t, s.full + t, true), Call(t, s.full + t + t, true)]
  {
    var s1 := OnEnd(parse, s);
    assert Run(parse, s, [End, Close]) == Run(parse, s1, [Close]);
    assert Run(parse, s1, [Close]) == OnClose(parse, s1);
  }

  // ---------------------------------------------------------------------
  // The operation

  /** Outcome of the streaming POST: the response stream's events, or a
      failure before the stream opened. */
  datatype StreamPost = Streaming(events: seq<Event>) | StreamFailed(failure: HttpFailure)

  /** How the returned promise ends: resolved (also with a failure object,
      before the stream), rejected, or never settled. */
  datatype StreamOutcome = Resolves(result: ChatResult) | Rejects(result: ChatResult) | Unsettled

  datatype StreamRun = StreamRun(request: ChatRequest, outcome: StreamOutcome, calls: seq<Call>)

  /** `generateStreamResponse(message, model, conversationHistory, onData)` */
  function GenerateStreamResponse(config: Config, message: string, model: Option<string>,
                                  history: seq<Message>, post: StreamPost, parse: Parser): (r: StreamRun)
    ensures r.request == ChatRequest(ResolveModel(config, model), BuildMessages(history, message), true)
    ensures post.StreamFailed? ==>
      r.outcome == Resolves(ChatFailed(StreamSetupErrorText(config.baseUrl, post.failure))) && r.calls == []
    ensures r.outcome.Rejects? ==> post.Streaming? && r.outcome.result.ChatFailed?
    ensures post.Streaming? && r.outcome.Resolves? ==>
      && r.outcome.result.Reply?
      && r.outcome.result.model == r.request.model
      && r.outcome.result.done == Some(true)
      && r.outcome.result.response.Some?
      && r.outcome.result.response.value <= Fragments(r.calls)
    ensures Cumulative(r.calls)
  {
    var request := ChatRequest(ResolveModel(config, model), BuildMessages(history, message), true);
    match post
    case StreamFailed(e) =>
      StreamRun(request, Resolves(ChatFailed(StreamSetupErrorText(config.baseUrl, e))), [])
    case Streaming(events) =>
      var s := Run(parse, Initial, events);
      RunCoherent(parse, Initial, events);
      var outcome := match s.settlement
        case Pending => Unsettled
        case Resolved(text) => Resolves(Reply(Some(text), request.model, Some(true)))
        case Rejected(e) => Rejects(ChatFailed(e));
      StreamRun(request, outcome, s.calls)
  }

  /** The two ways of asking agree: a stream holding one complete content
      frame marked `done`, then `end`, resolves with the result the
      single-shot call gives for that frame, after one callback. */
  lemma OneFrameStreamMatchesSingleShot(config: Config, message: string, model: Option<string>,
                                        history: seq<Message>, parse: Parser, line: string, f: Frame)
    requires '\n' !in line && !Skipped(line) && parse(line) == Some(f)
    requires Fragment(f).Some? && ErrorOf(f).None? && f.done == Some(true)
    ensures var streamed := GenerateStreamResponse(config, message, model, history,
                                                   Streaming([Data(line + "\n"), End]), parse);
      var single := GenerateResponse(config, message, model, history, Answered(Some(f)));
      && streamed.outcome == Resolves(single.result)
      && streamed.request == single.request.(stream := true)
      && streamed.calls == [Call(Fragment(f).value, Fragment(f).value, true)]
  {
    var t := Fragment(f).value;
    OneLineChunk(line);
    assert Initial.(buffer := []) == Initial;
    var s1 := OnData(parse, Initial, line + "\n");
    assert s1 == ProcessLines(parse, Initial, [line]);
    assert ProcessLines(parse, Initial, [line]) == ProcessLines(parse, ProcessLine(parse, Initial, line), []);
    assert s1 == Initial.(full := t, calls := [Call(t, [] + t, true)]);
    assert IsBlank(s1.buffer);
    var s2 := OnEnd(parse, s1);
    assert s2.settlement == Resolved(t);
    var events := [Data(line + "\n"), End];
    assert events[1..] == [End] && [End][1..] == [];
    assert Run(parse, Initial, events) == Run(parse, s1, [End]);
    assert Run(parse, s1, [End]) == Run(parse, s2, []);
  }
}

=== FILE: wrappers.dfy ===
/** A value that may be absent: the model's stand-in for JavaScript's
    `undefined`/`null` on an optional property. */
module Wrappers {

  datatype Option<+T> = None | Some(value: T) {

    /** Returns the value in Some, or the given default if None */
    function GetOr(default: T): T {
      match this
      case Some(v) => v
      case None => default
    }
  }
}
